=== FILE: README.md ===
# Taskify task list, modelled in Dafny

Taskify is a single-page to-do list whose logic is in `web.js`. Every user
event runs one handler, and each handler edits the list of `li` items and
rewrites `localStorage`. This project lifts those handlers into pure
transitions over one immutable state, the `Taskify.Board`. The Board holds:

- `nodes`: every list item created since the page loaded, with its text, its
  completed flag and its selection checkbox. Items have identities because the
  reset snapshot (`originalOrder`) holds references to items, not copies.
- `order`: the items currently shown, top to bottom (`taskList.children`).
- `original`: the reset snapshot, in creation order. It is only ever appended to.
- `deletedCount` and `updatedCount`: the two counters held in memory.
- `store`: the browser's key-value store, strings to strings.

Each transition is a function with a contract:

- load at page start, add, edit
- toggle completed, tick or untick a checkbox
- delete one, delete selected, clear all
- sort ascending and descending, reset order
- one dragover step

Confirmation dialogs become a `confirmed` flag.

Host-library behaviour is passed in as parameters:

- `String.prototype.toLowerCase` is `lower`.
- `String.prototype.localeCompare` is `cmp`. It must be a consistent
  comparator: "not after" is total and transitive.
- The text an item sorts by, `li.textContent`, is `render`.

Two pieces of the library are modelled concretely:

- `String.prototype.trim` strips the ECMAScript WhiteSpace and
  LineTerminator code points.
- `JSON.stringify` writes the task array, and a decoder reads that layout
  back.

The stored counters are decimal numerals.

Modules:

- `Wrappers`: the optional value the decoders return.
- `Seqs`: filtering, removal, subsequences and distinctness.
- `Text`: trim.
- `Tasks`: the task record.
- `Codec`: the JSON layout of the task list and the counter numerals.
- `StableSort`: the stable sort that `Array.prototype.sort` must be.
- `Drag`: the drop-target rule.
- `Taskify`: the board and its transitions.
- `TaskifyProperties`: properties that relate several events.

Behaviours of the code a reader may not expect, which the model keeps:

- **Delete selected.** It removes the ticked items but does not change the
  deleted counter (`TaskifyProperties.DeleteSelectedUncounted`).
- **Unreadable stored list.** `JSON.parse` throws at `web.js:39`. That ends
  only the load handler: the counters were read at `web.js:20-21` and every
  event handler was attached before `loadTasks` runs at `web.js:212`. The page
  therefore runs on with no tasks and an empty snapshot, and the unreadable
  text stays in the store until the next save overwrites it.
  `Taskify.Startup` returns that board together with the error `CorruptTasks`
  (`TaskifyProperties.CorruptListResetReloads`,
  `TaskifyProperties.CorruptListAddReloads`).
- **Reset.** It shows the whole snapshot, including items deleted or cleared
  since the page loaded (`TaskifyProperties.ResetRevivesDeleted`). That can
  show two tasks with the same text (`TaskifyProperties.ResetBreaksUniqueness`).
- **Clear all.** It wipes the whole store, the persisted updated counter
  included, while the in-memory updated counter survives. A reload straight
  after it starts the updated counter at 0
  (`TaskifyProperties.ClearAllThenReload`), but the next accepted edit stores
  the surviving count plus one (`Taskify.Rename`).
- **Rejected edit.** An edit that is refused still rewrites the stored list.
- **Unchanged edit.** For a non-empty text with no white space at either end,
  as every text added or edited on the page is, an edit that commits the
  unchanged text counts as an update. Loading checks nothing, so a loaded
  text can lack that form: committed unchanged, an empty one is refused and
  one with white space at an end is stored trimmed.
- **Stale drag.** The last item picked up at dragstart is never forgotten. A
  later dragover from a drag that did not start on a list item, such as
  selected text or a file, moves that item again, and puts it back if it was
  deleted (`TaskifyProperties.StaleDragRevivesDeleted`).
- **Sort.** Sorting does not save (`TaskifyProperties.SortLeavesStoreStale`).
- **Load.** Loading performs no duplicate check
  (`TaskifyProperties.LoadSkipsDuplicateCheck`). So "no two shown tasks are
  equal ignoring case" is kept by add and edit
  (`TaskifyProperties.AddKeepsUnique`, `TaskifyProperties.EditKeepsUnique`)
  but is not an invariant of the page.

## Model

| member | source | states |
|---|---|---|
| Text.TrimIsSlice | web.js:53 | the trimmed text is the input with a run of whitespace removed from each end and nothing else removed |
| Text.TrimEmpty | web.js:53-54 | the trimmed input is empty exactly when the input is all whitespace (the empty-input refusal) |
| Text.Trim | web.js:53 | the trim applied to new and edited text (also web.js:146): a non-empty trimmed text starts and ends with a character that is not whitespace |
| Text.TrimIdempotent | web.js:146 | trimming an already trimmed value changes nothing |
| Codec.EncodeTasks | web.js:29-34 | the stored text is a bracketed JSON array, and it is the empty array `[]` exactly for the empty list |
| Codec.DecodeTasks | web.js:39 | `null` (a missing key) reads as no tasks; the stored text of any task list reads back as that list; any other accepted text starts with `[` |
| Codec.TaskRoundTrip | web.js:29-33 | one task record written as JSON is read back as the same text, completed and checked fields, leaving whatever follows it |
| Codec.DecodeEncode | web.js:34-39 | reading back the stored text of any task list gives that list, in the same order |
| Codec.EncodeInjective | web.js:34 | different task lists are stored as different texts |
| Codec.DecimalRoundTrip | web.js:101-102 | a counter stored as its decimal numeral reads back as the same number |
| StableSort.Sort | web.js:165-166 | the sorted list is a permutation of the input |
| StableSort.SortSorted | web.js:165-167 | under a total preorder, every earlier item of the sorted list is "not after" every later one |
| StableSort.SortStable | web.js:165-167 | items that compare equal keep their relative order |
| StableSort.SortOfSorted | web.js:165-167 | sorting a list that is already in order leaves it unchanged |
| Drag.AfterElement | web.js:107-116 | none exactly when no sibling's midpoint is below the pointer; otherwise a sibling whose midpoint is below the pointer, closest to it, and the first of those at that distance |
| Taskify.StoredCount | web.js:20-21 | a missing or empty stored counter reads as 0; a counter stored as the decimal numeral of `n` reads as `n`; any non-zero reading is a stored numeral |
| Taskify.Save | web.js:28-36 | the store then holds the shown tasks in list order; no other part of the board and no other stored key changes |
| Taskify.Append | web.js:68-85 | a fresh item holding the task goes to the end of the list and of the snapshot; existing items and counters are untouched |
| Taskify.LoadInto | web.js:38-44 | loading appends the tasks one by one to the list and the snapshot, in order, with no duplicate check; everything that was there stays; the list is saved after each one |
| Taskify.Startup | web.js:19-44 | the load error is reported exactly when a stored list is present and unreadable; either way the board is well formed, the snapshot equals the list and the counters are the stored numbers; without the error the list shows the stored tasks (none if absent), with it the list is empty and the store is left as it was; every stored entry other than the task list is kept, a non-empty loaded list is saved, and an empty one leaves the store exactly as it was |
| Taskify.TaskExists | web.js:25-26 | some shown item outside the detached ones has a text equal to the given one after lower-casing, exactly when the scan in list order finds one |
| Taskify.Add | web.js:52-62 | refused as empty exactly when the trimmed input is empty, and as a duplicate exactly when it equals a shown task ignoring case; a refusal changes nothing; otherwise one new unchecked, uncompleted item with the trimmed text is appended to the list and snapshot and saved, and nothing else changes |
| Taskify.Edit | web.js:145-158 | refused as empty exactly when the trimmed value is empty, and as a duplicate exactly when it differs from the current text and equals another shown task ignoring case (the item being edited is detached); a refusal only re-saves the list; otherwise only that item's text changes and the updated counter goes up by one and is stored |
| Taskify.Rename | web.js:150-153 | the accepted edit: only the item's text changes, the updated counter goes up by one and the stored counter holds the new value |
| Taskify.ToggleCompleted | web.js:93-96 | only that item's completed flag flips, counters are kept, and the list is saved |
| Taskify.SetChecked | web.js:87-91 | only that item's checkbox takes the new value, counters are kept, and the list is saved |
| Taskify.Delete | web.js:98-105 | unconfirmed changes nothing; confirmed removes exactly that item from the list, the others keeping their order, adds one to the deleted counter and stores it, and saves |
| Taskify.IsSelected | web.js:195 | an item is selected exactly when it is shown at some position whose shown task has its checkbox ticked |
| Taskify.DeleteSelected | web.js:194-202 | nothing changes unless it is confirmed and some shown item is ticked; then the list keeps exactly the unticked items, in their order, saved, with both counters unchanged |
| Taskify.ClearAll | web.js:185-192 | unconfirmed changes nothing; confirmed empties the list, resets the deleted counter, keeps the updated counter and the snapshot, and leaves the store holding only an empty task list |
| Taskify.Reset | web.js:176-183 | the list becomes the snapshot, removed items included, and is saved; nothing else changes |
| Taskify.ComparatorOrders | web.js:166 | a consistent comparator makes both the ascending and the descending item order total preorders |
| Taskify.SortAscending | web.js:164-168 | the list is permuted into ascending comparator order; nothing else changes, the store included |
| Taskify.SortDescending | web.js:170-174 | the list is permuted into descending comparator order; nothing else changes, the store included |
| Taskify.DropCandidates | web.js:108 | the items the drop rule measures are exactly the shown ones, less the dragged item while it carries the dragging mark |
| Taskify.InsertBefore | web.js:124 | the item leaves its place, if it has one, and lands just before the anchor or last when there is none; inserting it before itself changes nothing; no other item is added, lost or reordered, and none appears twice |
| Taskify.DragOver | web.js:117-125 | the last item picked up, shown or deleted since, lands just before the candidate the drop rule chooses, or last when none is chosen, and stays put when the chosen one is itself; the other items keep their order, it is added to the list only if it was not shown, and the store is not written |
| TaskifyProperties.SaveLoadRoundTrip | web.js:28-44 | reloading after a save shows the same tasks in the same order, with the snapshot equal to the list |
| TaskifyProperties.PersistedReloads | web.js:38-44 | a saved board always reloads, showing what was shown |
| TaskifyProperties.CorruptListResetReloads | web.js:176-183 | when the load at web.js:39 fails on an unreadable stored list, the page starts with no tasks and keeps the unreadable text; a reset then stores an empty list that reads back |
| TaskifyProperties.CorruptListAddReloads | web.js:52-62 | when the load at web.js:39 fails on an unreadable stored list, an accepted add stores a list holding just the new task, which reads back |
| TaskifyProperties.StartupKeepsCounters | web.js:19-44 | loading leaves both stored counters alone, so reloading the store a load leaves behind reads the same counters |
| TaskifyProperties.DeletedCountSurvivesReload | web.js:20-102 | after a confirmed delete, a reload reads back the in-memory deleted counter |
| TaskifyProperties.UpdatedCountSurvivesReload | web.js:150-157 | after any edit the saved list reloads, and after an accepted one the reload reads back the in-memory updated counter |
| TaskifyProperties.ClearAllThenReload | web.js:185-192 | clear-all keeps the updated counter in memory, but a reload then starts with no tasks and both counters at 0 |
| TaskifyProperties.ResetRevivesDeleted | web.js:176-183 | an item deleted from the list is shown again after reset |
| TaskifyProperties.ResetIdempotent | web.js:176-183 | pressing reset twice gives the same board as once |
| TaskifyProperties.ResetBreaksUniqueness | web.js:176-183 | deleting a task, adding one with the same text (always accepted when it was the only task) and resetting shows two tasks equal ignoring case |
| TaskifyProperties.AddKeepsUnique | web.js:52-62 | if no two shown tasks are equal ignoring case, that stays so after an add |
| TaskifyProperties.EditKeepsUnique | web.js:145-158 | if no two shown tasks are equal ignoring case, that stays so after an edit |
| TaskifyProperties.LoadSkipsDuplicateCheck | web.js:38-44 | a stored list holding the same task twice loads, with both copies shown |
| TaskifyProperties.ToggleTwice | web.js:93-96 | pressing the check button twice on a saved board restores it exactly |
| TaskifyProperties.SetCheckedIdempotent | web.js:87-91 | setting a checkbox to the value it already has changes nothing |
| TaskifyProperties.UnchangedEditCounts | web.js:145-153 | for a non-empty text with no white space at either end, as every text added or edited on the page is, committing it unchanged is accepted, leaves the tasks as they were and still adds one to the updated counter |
| TaskifyProperties.UnchangedEditTwice | web.js:145-153 | for a non-empty text with no white space at either end, committing it unchanged twice adds two to the updated counter |
| TaskifyProperties.SortAscendingStable | web.js:164-168 | sorting ascending keeps items with equal keys in their previous order |
| TaskifyProperties.SortDescendingStable | web.js:170-174 | sorting descending keeps items with equal keys in their previous order |
| TaskifyProperties.SortAscendingIdempotent | web.js:164-168 | pressing sort-ascending twice gives the same board as once |
| TaskifyProperties.SortLeavesStoreStale | web.js:164-168 | on a saved board, a sort that moves any task leaves the store no longer matching what is shown |
| TaskifyProperties.StaleDragRevivesDeleted | web.js:117-129 | after a confirmed delete of the last dragged item, a dragover without the dragging mark shows it again |
| TaskifyProperties.DeleteSelectedUncounted | web.js:194-202 | delete-selected changes neither the deleted counter in memory nor the one stored |

## Left out

- DOM rendering, the item template, CSS classes, button visibility and the statistics display (`updateTaskify`): presentation only.
- Alerts and confirmation dialogs: a refusal is the `rejected` field of a `Reply`, and a confirmation is the `confirmed` flag.
- The theme toggle, the `darkMode` key and the timed background animation: cosmetic. (An unreadable stored list also stops the animation from starting.) Clear-all does wipe `darkMode`, because it wipes the whole store.
- Layout: the pointer position and item midpoints are given as integers, not as floating-point `getBoundingClientRect` values. `dragstart` records the dragged item and marks it; the model takes the item and its mark as the `dragged` and `marked` parameters of `Taskify.DragOver`. `dragend` removes the mark and saves, so it is `Taskify.Save`.
- Unicode lower-casing, locale collation and the item template's text content are parameters, not modelled.
- Strings are sequences of code points, not UTF-16 units. The decoder therefore rejects `\u` escapes of surrogate halves, which `JSON.stringify` never writes for well-formed text.
- Codec.DecodeTasks: reads only the layout `JSON.stringify` writes (no insignificant whitespace, fields in the written order) plus `null`. Other falsy JSON values (`false`, `0`, `""`), which the page also reads as no tasks, are treated as unreadable.
- Taskify.StoredCount: reads only plain decimal numerals. A missing or empty value reads as 0, as on the page (`value || 0`). Any other text reads as 0 here, while the page's `++` applies JavaScript's `Number` conversion to it: text `Number` accepts, such as `" 7"`, `"0x1A"`, `"1e3"`, `"+4"` or `"7.5"`, counts on from that number, and text it rejects gives NaN, which then stays NaN.
- Taskify.Delete: the deleted counter is an unbounded natural number. On the page it is a double, and `++` stops changing it at 2^53.
- Taskify.Rename: the updated counter is an unbounded natural number. On the page it is a double, and `++` stops changing it at 2^53.
- Number formatting of counters at 10^21 and above, where JavaScript switches to exponent notation.
- Browser focus order, such as Enter followed by blur committing an edit twice: each commit is one `Taskify.Edit`.

=== FILE: codec.dfy ===
/**
 * The text forms written to the browser's key-value store: the task array as
 * JSON.stringify lays it out, and the counters as decimal numerals.
 */
module Codec {
  import opened Wrappers
  import opened Tasks
  import Seqs

  /** A parsed value and the input left after it. */
  datatype Parsed<T> = Parsed(value: T, rest: string)

  // ---------------------------------------------------------------- literals

  /** Consumes the literal `lit` at the start of `s`. */
  function Expect(lit: string, s: string): (r: Option<string>)
    ensures r.Some? <==> |lit| <= |s| && s[..|lit|] == lit
    ensures r.Some? ==> s == lit + r.value
  {
    if |lit| <= |s| && s[..|lit|] == lit then Some(s[|lit|..]) else None
  }

  lemma ExpectPrefix(lit: string, rest: string)
    ensures Expect(lit, lit + rest) == Some(rest)
  {
    assert (lit + rest)[..|lit|] == lit;
    assert (lit + rest)[|lit|..] == rest;
  }

  // ---------------------------------------------------------------- strings

  /** Lower-case hexadecimal digit, as JSON.stringify writes `\u00XX` escapes. */
  function HexDigit(n: nat): char
    requires n < 16
  {
    if n < 10 then ('0' as int + n) as char else ('a' as int + (n - 10)) as char
  }

  /** Value of a hexadecimal digit in either case. */
  function HexValue(c: char): (r: Option<nat>)
    ensures r.Some? ==> r.value < 16
  {
    if '0' <= c <= '9' then Some(c as int - '0' as int)
    else if 'a' <= c <= 'f' then Some(c as int - 'a' as int + 10)
    else if 'A' <= c <= 'F' then Some(c as int - 'A' as int + 10)
    else None
  }

  lemma HexRoundTrip(n: nat)
    requires n < 16
    ensures HexValue(HexDigit(n)) == Some(n)
  {
  }

  /** Value of four hexadecimal digits. */
  function Hex4(h: string): (r: Option<nat>)
    requires |h| == 4
    ensures r.Some? ==> r.value < 0x10000
  {
    var a :- HexValue(h[0]);
    var b :- HexValue(h[1]);
    var c :- HexValue(h[2]);
    var d :- HexValue(h[3]);
    Some(((a * 16 + b) * 16 + c) * 16 + d)
  }

  /** The characters JSON.stringify cannot write as themselves inside a string literal. */
  predicate NeedsEscape(c: char) {
    c == '"' || c == '\\' || c as int < 0x20
  }

  /** JSON.stringify's spelling of one character inside a string literal. */
  function EscapeChar(c: char): (r: string)
    ensures !NeedsEscape(c) <==> r == [c]
    ensures NeedsEscape(c) ==> |r| >= 2 && r[0] == '\\'
  {
    if c == '"' then "\\\""
    else if c == '\\' then "\\\\"
    else if c as int == 0x08 then "\\b"
    else if c == '\t' then "\\t"
    else if c == '\n' then "\\n"
    else if c as int == 0x0C then "\\f"
    else if c == '\r' then "\\r"
    else if c as int < 0x20 then "\\u00" + [HexDigit(c as int / 16), HexDigit(c as int % 16)]
    else [c]
  }

  function Escape(s: string): string {
    if s == [] then [] else EscapeChar(s[0]) + Escape(s[1..])
  }

  /** A JSON string literal denoting `s`. */
  function Quote(s: string): string {
    "\"" + Escape(s) + "\""
  }

  /** Decodes the escape sequence that follows a backslash. */
  function ParseEscape(s: string): (r: Option<Parsed<char>>)
    ensures r.Some? ==> |r.value.rest| < |s|
  {
    if s == [] then None
    else if s[0] == '"' || s[0] == '\\' || s[0] == '/' then Some(Parsed(s[0], s[1..]))
    else if s[0] == 'b' then Some(Parsed(0x08 as char, s[1..]))
    else if s[0] == 'f' then Some(Parsed(0x0C as char, s[1..]))
    else if s[0] == 'n' then Some(Parsed('\n', s[1..]))
    else if s[0] == 'r' then Some(Parsed('\r', s[1..]))
    else if s[0] == 't' then Some(Parsed('\t', s[1..]))
    else if s[0] == 'u' && |s| >= 5 then
      var code :- Hex4(s[1..5]);
      if 0xD800 <= code < 0xE000 then None else Some(Parsed(code as char, s[5..]))
    else None
  }

  /** Decodes the inside of a string literal up to and including its closing quote. */
  function ParseStringBody(s: string): (r: Option<Parsed<string>>)
    ensures r.Some? ==> |r.value.rest| < |s|
    decreases |s|
  {
    if s == [] then None
    else if s[0] == '"' then Some(Parsed([], s[1..]))
    else if s[0] == '\\' then
      var e :- ParseEscape(s[1..]);
      var more :- ParseStringBody(e.rest);
      Some(Parsed([e.value] + more.value, more.rest))
    else if s[0] as int < 0x20 then None
    else
      var more :- ParseStringBody(s[1..]);
      Some(Parsed([s[0]] + more.value, more.rest))
  }

  /** Decodes a string literal. */
  function ParseQuoted(s: string): (r: Option<Parsed<string>>)
    ensures r.Some? ==> |r.value.rest| < |s|
  {
    var body :- Expect("\"", s);
    ParseStringBody(body)
  }

  /** Decoding one escaped character puts it in front of whatever the rest decodes to. */
  lemma EscapeCharRoundTrip(c: char, tail: string, body: string, rest: string)
    requires ParseStringBody(tail) == Some(Parsed(body, rest))
    ensures ParseStringBody(EscapeChar(c) + tail) == Some(Parsed([c] + body, rest))
  {
    var s := EscapeChar(c) + tail;
    if !NeedsEscape(c) {
      assert s[0] == c && s[1..] == tail;
    } else {
      var e := EscapeChar(c);
      assert s[0] == '\\';
      assert s[1..] == e[1..] + tail;
      EscapeSequenceRoundTrip(c, tail);
    }
  }

  /** What follows the backslash of an escaped character decodes back to that character. */
  lemma EscapeSequenceRoundTrip(c: char, tail: string)
    requires NeedsEscape(c)
    ensures ParseEscape(EscapeChar(c)[1..] + tail) == Some(Parsed(c, tail))
  {
    if c as int < 0x20 && c as int !in {0x08, 0x09, 0x0A, 0x0C, 0x0D} {
      UnicodeEscapeRoundTrip(c, tail);
    }
  }

  /** A control character written as `\u00XX` decodes back to itself. */
  lemma UnicodeEscapeRoundTrip(c: char, tail: string)
    requires c as int < 0x20 && c as int !in {0x08, 0x09, 0x0A, 0x0C, 0x0D}
    ensures ParseEscape(EscapeChar(c)[1..] + tail) == Some(Parsed(c, tail))
  {
    var hi, lo := c as int / 16, c as int % 16;
    HexRoundTrip(hi);
    HexRoundTrip(lo);
    var u := EscapeChar(c)[1..] + tail;
    assert EscapeChar(c) == "\\u00" + [HexDigit(hi), HexDigit(lo)];
    assert u[0] == 'u';
    assert u[1..5] == ['0', '0', HexDigit(hi), HexDigit(lo)];
    assert Hex4(u[1..5]) == Some(c as int);
    assert u[5..] == tail;
  }

  lemma {:induction false} StringRoundTrip(s: string, rest: string)
    ensures ParseStringBody(Escape(s) + "\"" + rest) == Some(Parsed(s, rest))
    decreases |s|
  {
    if s == [] {
      assert Escape(s) + "\"" + rest == "\"" + rest;
    } else {
      StringRoundTrip(s[1..], rest);
      EscapeThen(s, rest);
      EscapeCharRoundTrip(s[0], Escape(s[1..]) + "\"" + rest, s[1..], rest);
      assert [s[0]] + s[1..] == s;
    }
  }

  /** The escaped text followed by more input, split after its first character's escape. */
  lemma EscapeThen(s: string, rest: string)
    requires s != []
    ensures Escape(s) + "\"" + rest == EscapeChar(s[0]) + (Escape(s[1..]) + "\"" + rest)
  {
    var head, body, close := EscapeChar(s[0]), Escape(s[1..]), "\"";
    assert Escape(s) == head + body;
    Seqs.AppendAssoc(head + body, close, rest);
    Seqs.AppendAssoc(head, body, close + rest);
    Seqs.AppendAssoc(body, close, rest);
  }

  /** Decoding a quoted string gives back the string and leaves what followed it. */
  lemma QuotedRoundTrip(s: string, rest: string)
    ensures ParseQuoted(Quote(s) + rest) == Some(Parsed(s, rest))
  {
    var open, body := "\"", Escape(s);
    assert Quote(s) == open + body + open;
    Seqs.AppendAssoc(open + body, open, rest);
    Seqs.AppendAssoc(open, body, open + rest);
    Seqs.AppendAssoc(body, open, rest);
    ExpectPrefix("\"", Escape(s) + "\"" + rest);
    StringRoundTrip(s, rest);
  }

  // ---------------------------------------------------------------- booleans

  function BoolText(b: bool): string {
    if b then "true" else "false"
  }

  function ParseBool(s: string): (r: Option<Parsed<bool>>)
    ensures r.Some? ==> |r.value.rest| < |s|
  {
    match Expect("true", s)
    case Some(rest) => Some(Parsed(true, rest))
    case None =>
      var rest :- Expect("false", s);
      Some(Parsed(false, rest))
  }

  lemma BoolRoundTrip(b: bool, rest: string)
    ensures ParseBool(BoolText(b) + rest) == Some(Parsed(b, rest))
  {
    ExpectPrefix(BoolText(b), rest);
    if !b {
      assert (BoolText(b) + rest)[0] == 'f';
    }
  }

  // ---------------------------------------------------------------- tasks

  /** JSON.stringify of `{text, completed, checked}`: keys in insertion order, no white space. */
  function EncodeTask(t: Task): string {
    "{\"text\":" + (Quote(t.text) + (",\"completed\":" + (BoolText(t.completed)
      + (",\"checked\":" + (BoolText(t.checked) + "}")))))
  }

  function ParseTask(s: string): (r: Option<Parsed<Task>>)
    ensures r.Some? ==> |r.value.rest| < |s|
  {
    var a :- Expect("{\"text\":", s);
    var text :- ParseQuoted(a);
    var b :- Expect(",\"completed\":", text.rest);
    var completed :- ParseBool(b);
    var c :- Expect(",\"checked\":", completed.rest);
    var checked :- ParseBool(c);
    var d :- Expect("}", checked.rest);
    Some(Parsed(Task(text.value, completed.value, checked.value), d))
  }

  /** The encoded task followed by more input, regrouped the way the parser reads it. */
  lemma EncodeTaskThen(t: Task, rest: string)
    ensures EncodeTask(t) + rest
         == "{\"text\":" + (Quote(t.text) + (",\"completed\":" + (BoolText(t.completed)
              + (",\"checked\":" + (BoolText(t.checked) + ("}" + rest))))))
  {
    Regroup("{\"text\":", Quote(t.text), ",\"completed\":", BoolText(t.completed),
            ",\"checked\":", BoolText(t.checked), "}", rest);
  }

  lemma Regroup(a: string, b: string, c: string, d: string, e: string, f: string, g: string, rest: string)
    ensures (a + (b + (c + (d + (e + (f + g)))))) + rest == a + (b + (c + (d + (e + (f + (g + rest))))))
  {
    Seqs.AppendAssoc(f, g, rest);
    Seqs.AppendAssoc(e, f + g, rest);
    Seqs.AppendAssoc(d, e + (f + g), rest);
    Seqs.AppendAssoc(c, d + (e + (f + g)), rest);
    Seqs.AppendAssoc(b, c + (d + (e + (f + g))), rest);
    Seqs.AppendAssoc(a, b + (c + (d + (e + (f + g)))), rest);
  }

  lemma TaskRoundTrip(t: Task, rest: string)
    ensures ParseTask(EncodeTask(t) + rest) == Some(Parsed(t, rest))
  {
    var r4 := "}" + rest;
    var r3 := BoolText(t.checked) + r4;
    var r2 := ",\"checked\":" + r3;
    var r1 := BoolText(t.completed) + r2;
    var r0 := ",\"completed\":" + r1;
    var q := Quote(t.text) + r0;
    EncodeTaskThen(t, rest);
    ExpectPrefix("{\"text\":", q);
    QuotedRoundTrip(t.text, r0);
    ExpectPrefix(",\"completed\":", r1);
    BoolRoundTrip(t.completed, r2);
    ExpectPrefix(",\"checked\":", r3);
    BoolRoundTrip(t.checked, r4);
    ExpectPrefix("}", rest);
  }

  /** The array elements separated by commas, as Array.prototype.join(",") lays them out. */
  function EncodeItems(ts: seq<Task>): string
    decreases |ts|
  {
    if ts == [] then ""
    else if |ts| == 1 then EncodeTask(ts[0])
    else EncodeTask(ts[0]) + "," + EncodeItems(ts[1..])
  }

  /**
   * JSON.stringify of the task array: a bracketed array, empty only for the
   * empty list. `DecodeTasks` reads it back.
   */
  function EncodeTasks(ts: seq<Task>): (r: string)
    ensures |r| >= 2 && r[0] == '[' && r[|r| - 1] == ']'
    ensures r == "[]" <==> ts == []
  {
    EncodeItemsStart(ts);
    assert ts == [] ==> "[" + EncodeItems(ts) + "]" == "[]";
    "[" + EncodeItems(ts) + "]"
  }

  /** Decodes one or more comma-separated tasks and the closing bracket. */
  function ParseItems(s: string): (r: Option<Parsed<seq<Task>>>)
    ensures r.Some? ==> |r.value.rest| < |s|
    decreases |s|
  {
    var first :- ParseTask(s);
    if |first.rest| > 0 && first.rest[0] == ',' then
      var more :- ParseItems(first.rest[1..]);
      Some(Parsed([first.value] + more.value, more.rest))
    else
      var rest :- Expect("]", first.rest);
      Some(Parsed([first.value], rest))
  }

  /** Decodes the contents of an array after its opening bracket. */
  function ParseArray(s: string): (r: Option<Parsed<seq<Task>>>)
    ensures r.Some? ==> |r.value.rest| < |s|
  {
    if |s| > 0 && s[0] == ']' then Some(Parsed([], s[1..])) else ParseItems(s)
  }

  /**
   * The task list read back from its stored text: `null` (what a missing key
   * parses to) reads as no tasks; anything else must be a whole array.
   */
  function DecodeTasks(s: string): (r: Option<seq<Task>>)
    ensures s == "null" ==> r == Some([])
    ensures forall ts :: s == EncodeTasks(ts) ==> r == Some(ts)
    ensures r.Some? && s != "null" ==> |s| > 0 && s[0] == '['
  {
    assert forall ts :: s == EncodeTasks(ts) ==> ReadArray(s) == Some(ts) by {
      forall ts | s == EncodeTasks(ts) {
        ReadArrayRoundTrip(ts);
      }
    }
    if s == "null" then Some([]) else ReadArray(s)
  }

  /** A whole array of tasks, opening bracket to closing bracket, with nothing after it. */
  function ReadArray(s: string): Option<seq<Task>> {
    var body :- Expect("[", s);
    var items :- ParseArray(body);
    if items.rest == [] then Some(items.value) else None
  }

  lemma {:induction false} ItemsRoundTrip(ts: seq<Task>, rest: string)
    requires ts != []
    ensures ParseItems(EncodeItems(ts) + "]" + rest) == Some(Parsed(ts, rest))
    decreases |ts|
  {
    if |ts| == 1 {
      OneItemRoundTrip(ts, rest);
    } else {
      var tail := EncodeItems(ts[1..]) + "]" + rest;
      ItemsRoundTrip(ts[1..], rest);
      NextItemRoundTrip(ts[0], tail, ts[1..], rest);
      EncodeItemsThen(ts, rest);
      assert [ts[0]] + ts[1..] == ts;
    }
  }

  lemma OneItemRoundTrip(ts: seq<Task>, rest: string)
    requires |ts| == 1
    ensures ParseItems(EncodeItems(ts) + "]" + rest) == Some(Parsed(ts, rest))
  {
    LastItemRoundTrip(ts[0], rest);
    assert ts == [ts[0]];
  }

  lemma EncodeItemsThen(ts: seq<Task>, rest: string)
    requires |ts| > 1
    ensures EncodeItems(ts) + "]" + rest == EncodeTask(ts[0]) + ("," + (EncodeItems(ts[1..]) + "]" + rest))
  {
    var head, tail := EncodeTask(ts[0]), EncodeItems(ts[1..]);
    assert EncodeItems(ts) == head + "," + tail;
    Seqs.AppendAssoc(head + "," + tail, "]", rest);
    Seqs.AppendAssoc(head + ",", tail, "]" + rest);
    Seqs.AppendAssoc(head, ",", tail + ("]" + rest));
    Seqs.AppendAssoc(tail, "]", rest);
  }

  lemma LastItemRoundTrip(t: Task, rest: string)
    ensures ParseItems(EncodeTask(t) + "]" + rest) == Some(Parsed([t], rest))
  {
    assert EncodeTask(t) + "]" + rest == EncodeTask(t) + ("]" + rest);
    TaskRoundTrip(t, "]" + rest);
    ExpectPrefix("]", rest);
  }

  lemma NextItemRoundTrip(t: Task, tail: string, ts: seq<Task>, rest: string)
    requires ParseItems(tail) == Some(Parsed(ts, rest))
    ensures ParseItems(EncodeTask(t) + ("," + tail)) == Some(Parsed([t] + ts, rest))
  {
    TaskRoundTrip(t, "," + tail);
    assert ("," + tail)[1..] == tail;
  }

  lemma EncodeItemsStart(ts: seq<Task>)
    ensures ts != [] ==> |EncodeItems(ts)| > 0 && EncodeItems(ts)[0] == '{'
  {
  }

  /** Reading back what was written gives the same task list, in the same order. */
  lemma DecodeEncode(ts: seq<Task>)
    ensures DecodeTasks(EncodeTasks(ts)) == Some(ts)
  {
  }

  /** The bracketed array text of a list is read back as that list. */
  lemma ReadArrayRoundTrip(ts: seq<Task>)
    ensures ReadArray(EncodeTasks(ts)) == Some(ts)
  {
    var body := EncodeItems(ts) + "]";
    Seqs.AppendAssoc("[", EncodeItems(ts), "]");
    assert EncodeTasks(ts) == "[" + body;
    ExpectPrefix("[", body);
    ArrayRoundTrip(ts);
  }

  /** The array contents after the opening bracket decode to the list, consuming everything. */
  lemma ArrayRoundTrip(ts: seq<Task>)
    ensures ParseArray(EncodeItems(ts) + "]") == Some(Parsed(ts, ""))
  {
    if ts == [] {
      assert EncodeItems(ts) + "]" == "]";
    } else {
      EncodeItemsStart(ts);
      ItemsRoundTrip(ts, "");
      assert EncodeItems(ts) + "]" + "" == EncodeItems(ts) + "]";
    }
  }

  /** Different task lists are written as different texts. */
  lemma EncodeInjective(a: seq<Task>, b: seq<Task>)
    requires EncodeTasks(a) == EncodeTasks(b)
    ensures a == b
  {
    DecodeEncode(a);
    DecodeEncode(b);
  }

  // ---------------------------------------------------------------- counters

  function DigitChar(d: nat): char
    requires d < 10
  {
    ('0' as int + d) as char
  }

  /** The decimal numeral of `n`, as Number.prototype.toString writes it. */
  function Decimal(n: nat): (r: string)
    ensures |r| > 0
    ensures forall i :: 0 <= i < |r| ==> '0' <= r[i] <= '9'
  {
    if n < 10 then [DigitChar(n)] else Decimal(n / 10) + [DigitChar(n % 10)]
  }

  /** Value of a non-empty run of decimal digits; anything else is not a count. */
  function ParseDecimal(s: string): (r: Option<nat>)
    decreases |s|
  {
    if s == [] || !('0' <= s[|s| - 1] <= '9') then None
    else
      var d := s[|s| - 1] as int - '0' as int;
      if |s| == 1 then Some(d)
      else
        var high :- ParseDecimal(s[..|s| - 1]);
        Some(high * 10 + d)
  }

  lemma {:induction false} DecimalRoundTrip(n: nat)
    ensures ParseDecimal(Decimal(n)) == Some(n)
    decreases n
  {
    if n >= 10 {
      DecimalRoundTrip(n / 10);
      var s := Decimal(n);
      assert s[..|s| - 1] == Decimal(n / 10);
    }
  }
}

=== FILE: drag.dfy ===
/** The drop position chosen while a task is dragged over the list. */
module Drag {
  import opened Wrappers

  /**
   * The sibling the dragged task is inserted before, given the vertical
   * midpoint of every other list item and the pointer position `y`: the
   * first item whose midpoint lies below the pointer by the least distance.
   * None means the task goes to the end of the list.
   */
  function AfterElement(mids: seq<int>, y: int): (r: Option<nat>)
    ensures r.None? <==> forall j :: 0 <= j < |mids| ==> mids[j] <= y
    ensures r.Some? ==> r.value < |mids| && mids[r.value] > y
    ensures r.Some? ==> forall j :: 0 <= j < |mids| && mids[j] > y ==> mids[r.value] <= mids[j]
    ensures r.Some? ==> forall j :: 0 <= j < r.value && mids[j] > y ==> mids[r.value] < mids[j]
    decreases |mids|
  {
    if mids == [] then None
    else
      var n := |mids| - 1;
      var closest := AfterElement(mids[..n], y);
      var offset := y - mids[n];
      if offset < 0 && (closest.None? || offset > y - mids[closest.value]) then Some(n) else closest
  }
}

=== FILE: properties.dfy ===
/**
 * Properties that relate several events of the task list: persistence round
 * trips, what reset and load do to the no-duplicates rule, and the algebra of
 * the toggles, edits and sorts.
 */
module TaskifyProperties {
  import opened Wrappers
  import opened Tasks
  import opened Text
  import Codec
  import StableSort
  import opened Taskify

  /** No two shown tasks have the same text once lower-cased. */
  ghost predicate UniqueTexts(b: Board, lower: string -> string)
    requires Valid(b)
  {
    forall x, y :: x in b.order && y in b.order && x != y ==> lower(b.nodes[x].text) != lower(b.nodes[y].text)
  }

  // ---------------------------------------------------------------- persistence

  /** Reloading the page after a save shows the same tasks in the same order, and resets the snapshot to them. */
  lemma SaveLoadRoundTrip(b: Board)
    requires Valid(b)
    ensures Startup(Save(b).store).error.None?
    ensures Visible(Startup(Save(b).store).board) == Visible(b)
    ensures Startup(Save(b).store).board.original == Startup(Save(b).store).board.order
  {
    Codec.DecodeEncode(Visible(b));
  }

  /** A persisted board always reloads. */
  lemma PersistedReloads(b: Board)
    requires Persisted(b)
    ensures Startup(b.store).error.None? && Visible(Startup(b.store).board) == Visible(b)
  {
    Codec.DecodeEncode(Visible(b));
  }

  /** Loading leaves the stored counters alone, so a second reload reads the same counters as the first. */
  lemma StartupKeepsCounters(s: Store)
    ensures Startup(Startup(s).board.store).board.deletedCount == Startup(s).board.deletedCount
    ensures Startup(Startup(s).board.store).board.updatedCount == Startup(s).board.updatedCount
  {
    var t := Startup(s).board.store;
    SameCounter(s, t, DeletedKey);
    SameCounter(s, t, UpdatedKey);
  }

  /** Two stores that agree outside the task list hold the same counter under any other key. */
  lemma SameCounter(s: Store, t: Store, key: string)
    requires t - {TasksKey} == s - {TasksKey} && key != TasksKey
    ensures StoredCount(t, key) == StoredCount(s, key)
  {
    assert key in t <==> key in (t - {TasksKey});
    assert key in s <==> key in (s - {TasksKey});
    assert key in s ==> t[key] == (t - {TasksKey})[key] == s[key];
  }

  /** After a confirmed delete the stored deleted counter reads back as the one in memory. */
  lemma DeletedCountSurvivesReload(b: Board, id: NodeId)
    requires Valid(b) && id in b.nodes
    ensures Startup(Delete(b, id, true).store).error.None?
    ensures Startup(Delete(b, id, true).store).board.deletedCount == Delete(b, id, true).deletedCount
  {
    PersistedReloads(Delete(b, id, true));
  }

  /** After an accepted edit the stored updated counter reads back as the one in memory. */
  lemma UpdatedCountSurvivesReload(b: Board, id: NodeId, input: string, lower: string -> string)
    requires Valid(b) && id in b.nodes
    ensures Startup(Edit(b, id, input, lower).board.store).error.None?
    ensures Edit(b, id, input, lower).rejected.None? ==>
              Startup(Edit(b, id, input, lower).board.store).board.updatedCount == Edit(b, id, input, lower).board.updatedCount
  {
    PersistedReloads(Edit(b, id, input, lower).board);
  }

  /**
   * Clear-all keeps the updated counter in memory but wipes it from the store:
   * a reload then starts from an empty list with both counters at zero.
   */
  lemma ClearAllThenReload(b: Board)
    requires Valid(b)
    ensures ClearAll(b, true).updatedCount == b.updatedCount
    ensures Startup(ClearAll(b, true).store)
         == Started(Board(map[], [], [], 0, 0, 0, map[TasksKey := "[]"]), None)
  {
    var s := ClearAll(b, true).store;
    Codec.DecodeEncode([]);
    assert Codec.EncodeTasks([]) == "[]";
    assert StoredCount(s, DeletedKey) == 0 && StoredCount(s, UpdatedKey) == 0;
  }

  /**
   * An unreadable stored list stops loading but not the page: it starts with
   * no tasks and the stored counters, and keeps the unreadable text until the
   * next save. A reset then replaces it with an empty list that reads back.
   */
  lemma CorruptListResetReloads(s: Store)
    requires TasksKey in s && Codec.DecodeTasks(s[TasksKey]).None?
    ensures Startup(s).error == Some(CorruptTasks)
    ensures Visible(Startup(s).board) == [] && Startup(s).board.store[TasksKey] == s[TasksKey]
    ensures Startup(Reset(Startup(s).board).store).error.None?
    ensures Visible(Startup(Reset(Startup(s).board).store).board) == []
  {
    var b := Startup(s).board;
    assert b.original == [];
    PersistedReloads(Reset(b));
  }

  /** After an unreadable stored list, an accepted add saves a list holding just the new task. */
  lemma CorruptListAddReloads(s: Store, input: string, lower: string -> string)
    requires TasksKey in s && Codec.DecodeTasks(s[TasksKey]).None?
    ensures Add(Startup(s).board, input, lower).rejected.None? ==>
              && Startup(Add(Startup(s).board, input, lower).board.store).error.None?
              && Visible(Startup(Add(Startup(s).board, input, lower).board.store).board) == [Task(Trim(input), false, false)]
  {
    var b := Startup(s).board;
    var r := Add(b, input, lower);
    if r.rejected.None? {
      assert Visible(b) == [];
      PersistedReloads(r.board);
    }
  }

  // ---------------------------------------------------------------- reset

  /** Reset puts back every item ever created since load, including deleted ones. */
  lemma ResetRevivesDeleted(b: Board, id: NodeId)
    requires Valid(b) && id in b.order
    ensures id !in Delete(b, id, true).order
    ensures id in Reset(Delete(b, id, true)).order
  {
  }

  /** Reset after reset changes nothing more. */
  lemma ResetIdempotent(b: Board)
    requires Valid(b)
    ensures Reset(Reset(b)) == Reset(b)
  {
    var r := Reset(b);
    assert Visible(r) == Visible(r.(order := r.original));
  }

  /**
   * The no-duplicates rule is not an invariant: delete a task, add one with the
   * same text (allowed, the first one is gone), then reset shows both. When the
   * deleted task was the only one shown, that add is always accepted.
   */
  lemma ResetBreaksUniqueness(b: Board, id: NodeId, input: string, lower: string -> string)
    requires Valid(b) && id in b.order
    requires Trim(input) != [] && lower(Trim(input)) == lower(b.nodes[id].text)
    ensures b.order == [id] ==> Add(Delete(b, id, true), input, lower).rejected.None?
    ensures Add(Delete(b, id, true), input, lower).rejected.None? ==>
              !UniqueTexts(Reset(Add(Delete(b, id, true), input, lower).board), lower)
  {
    var b2 := Delete(b, id, true);
    if b.order == [id] {
      assert b.order[0] == id;
      assert b2.order == b.order[..0] + b.order[1..];
      assert b2.order == [];
    }
    var a := Add(b2, input, lower);
    if a.rejected.None? {
      var n := a.board.order[|b2.order|];
      assert n != id;
      var r := Reset(a.board);
      assert r.order == b.original + [n];
      assert id in r.order && n in r.order;
      assert r.nodes[id] == b.nodes[id] && r.nodes[n].text == Trim(input);
    }
  }

  // ---------------------------------------------------------------- no-duplicates rule

  /** An accepted add keeps the shown texts distinct. */
  lemma AddKeepsUnique(b: Board, input: string, lower: string -> string)
    requires Valid(b) && UniqueTexts(b, lower)
    ensures UniqueTexts(Add(b, input, lower).board, lower)
  {
    var r := Add(b, input, lower);
    if r.rejected.None? {
      var a := r.board;
      var id := a.order[|b.order|];
      assert a.order == a.order[..|b.order|] + [id];
      NoMatchShown(b, Trim(input), lower, {});
      UniqueAfterAppend(b, a, id, Task(Trim(input), false, false), lower);
    }
  }

  /** When no shown task matches `text`, every shown item outside `detached` differs from it. */
  lemma NoMatchShown(b: Board, text: string, lower: string -> string, detached: set<NodeId>)
    requires Valid(b) && !TaskExists(b, text, lower, detached)
    ensures forall x :: x in b.order && x !in detached ==> lower(b.nodes[x].text) != lower(text)
  {
    forall x | x in b.order && x !in detached ensures lower(b.nodes[x].text) != lower(text) {
      var i :| 0 <= i < |b.order| && b.order[i] == x;
    }
  }

  /** Appending an item whose text matches no shown item keeps the shown texts distinct. */
  lemma UniqueAfterAppend(b: Board, a: Board, id: NodeId, t: Task, lower: string -> string)
    requires Valid(b) && Valid(a) && UniqueTexts(b, lower)
    requires a.order == b.order + [id] && id !in b.nodes && a.nodes == b.nodes[id := t]
    requires forall x :: x in b.order ==> lower(b.nodes[x].text) != lower(t.text)
    ensures UniqueTexts(a, lower)
  {
    forall x, y | x in a.order && y in a.order && x != y
      ensures lower(a.nodes[x].text) != lower(a.nodes[y].text)
    {
      assert x == id || x in b.order;
      assert y == id || y in b.order;
    }
  }

  /** An accepted edit keeps the shown texts distinct. */
  lemma EditKeepsUnique(b: Board, id: NodeId, input: string, lower: string -> string)
    requires Valid(b) && id in b.nodes && UniqueTexts(b, lower)
    ensures UniqueTexts(Edit(b, id, input, lower).board, lower)
  {
    var r := Edit(b, id, input, lower);
    if r.rejected.None? {
      var v := Trim(input);
      if v != b.nodes[id].text {
        NoMatchShown(b, v, lower, {id});
      }
      UniqueAfterRename(b, r.board, id, v, lower);
    }
  }

  /**
   * Renaming an item to its own text, or to a text that matches no other
   * shown item, keeps the shown texts distinct.
   */
  lemma UniqueAfterRename(b: Board, a: Board, id: NodeId, v: string, lower: string -> string)
    requires Valid(b) && Valid(a) && id in b.nodes && UniqueTexts(b, lower)
    requires EditedText(b, a, id, v)
    requires v == b.nodes[id].text || forall x :: x in b.order && x !in {id} ==> lower(b.nodes[x].text) != lower(v)
    ensures UniqueTexts(a, lower)
  {
    forall x, y | x in a.order && y in a.order && x != y
      ensures lower(a.nodes[x].text) != lower(a.nodes[y].text)
    {
      if x != id && y != id {
        assert a.nodes[x] == b.nodes[x] && a.nodes[y] == b.nodes[y];
      } else if x == id {
        assert a.nodes[y] == b.nodes[y];
      } else {
        assert a.nodes[x] == b.nodes[x];
      }
    }
  }

  /** Loading performs no duplicate check: a stored list holding a task twice reloads with both copies shown. */
  lemma LoadSkipsDuplicateCheck(t: Task, lower: string -> string)
    ensures Startup(map[TasksKey := Codec.EncodeTasks([t, t])]).error.None?
    ensures !UniqueTexts(Startup(map[TasksKey := Codec.EncodeTasks([t, t])]).board, lower)
  {
    var s := map[TasksKey := Codec.EncodeTasks([t, t])];
    Codec.DecodeEncode([t, t]);
    assert TasksKey in s && Codec.DecodeTasks(s[TasksKey]) == Some([t, t]);
    TwiceShown(Startup(s).board, lower);
  }

  /** Two shown items with the same task break the no-duplicates rule. */
  lemma TwiceShown(b: Board, lower: string -> string)
    requires Valid(b) && |Visible(b)| == 2 && Visible(b)[0] == Visible(b)[1]
    ensures !UniqueTexts(b, lower)
  {
    assert b.order[0] in b.order && b.order[1] in b.order;
    assert b.order[0] != b.order[1];
    assert b.nodes[b.order[0]] == Visible(b)[0];
    assert b.nodes[b.order[1]] == Visible(b)[1];
  }

  // ---------------------------------------------------------------- toggles and edits

  /** Pressing the check button twice restores a saved board exactly. */
  lemma ToggleTwice(b: Board, id: NodeId)
    requires Persisted(b) && id in b.nodes
    ensures ToggleCompleted(ToggleCompleted(b, id), id) == b
  {
    var m := ToggleCompleted(b, id);
    var r := ToggleCompleted(m, id);
    SameNodes(b.nodes, r.nodes, id);
    SameSavedBoard(b, r);
  }

  /** Ticking a checkbox to the value it already has changes nothing but the save. */
  lemma SetCheckedIdempotent(b: Board, id: NodeId, value: bool)
    requires Valid(b) && id in b.nodes
    ensures SetChecked(SetChecked(b, id, value), id, value) == SetChecked(b, id, value)
  {
    var once := SetChecked(b, id, value);
    var twice := SetChecked(once, id, value);
    SameNodes(once.nodes, twice.nodes, id);
    SameSavedBoard(once, twice);
  }

  /** Two node maps with the same keys that agree everywhere, `id` included, are equal. */
  lemma SameNodes(m: map<NodeId, Task>, n: map<NodeId, Task>, id: NodeId)
    requires n.Keys == m.Keys && id in m && n[id] == m[id]
    requires forall x :: x in m && x != id ==> n[x] == m[x]
    ensures n == m
  {
  }

  /** Two saved boards that agree on everything but possibly the stored list are equal. */
  lemma SameSavedBoard(b: Board, r: Board)
    requires Persisted(b) && Persisted(r)
    requires r.nodes == b.nodes && r.order == b.order && r.original == b.original && r.nextId == b.nextId
    requires CountersKept(b, r)
    ensures r == b
  {
    assert Visible(r) == Visible(b);
    forall k | k in b.store ensures k in r.store && r.store[k] == b.store[k] {
      if k != TasksKey {
        assert k in b.store - {TasksKey};
      }
    }
    assert r.store.Keys == b.store.Keys by {
      forall k | k in r.store ensures k in b.store {
        if k != TasksKey {
          assert k in r.store - {TasksKey};
        }
      }
    }
  }

  /** Committing an edit that keeps the text unchanged is accepted and still counts as an update. */
  lemma UnchangedEditCounts(b: Board, id: NodeId, lower: string -> string)
    requires Valid(b) && id in b.nodes
    requires b.nodes[id].text != [] && !IsJsSpace(b.nodes[id].text[0]) && !IsJsSpace(b.nodes[id].text[|b.nodes[id].text| - 1])
    ensures Edit(b, id, b.nodes[id].text, lower).rejected.None?
    ensures Edit(b, id, b.nodes[id].text, lower).board.nodes == b.nodes
    ensures Edit(b, id, b.nodes[id].text, lower).board.updatedCount == b.updatedCount + 1
  {
    var text := b.nodes[id].text;
    TrimmedUnchanged(text);
    var once := Edit(b, id, text, lower);
    assert once.rejected != Some(EmptyInput) && once.rejected != Some(DuplicateTask);
    SameTextSameNodes(b, once.board, id);
  }

  lemma SameTextSameNodes(b: Board, r: Board, id: NodeId)
    requires id in b.nodes && EditedText(b, r, id, b.nodes[id].text)
    ensures r.nodes == b.nodes
  {
    assert r.nodes[id] == b.nodes[id];
  }

  /** Committing the same unchanged text twice counts two updates. */
  lemma UnchangedEditTwice(b: Board, id: NodeId, lower: string -> string)
    requires Valid(b) && id in b.nodes
    requires b.nodes[id].text != [] && !IsJsSpace(b.nodes[id].text[0]) && !IsJsSpace(b.nodes[id].text[|b.nodes[id].text| - 1])
    ensures var once := Edit(b, id, b.nodes[id].text, lower).board;
            Edit(once, id, b.nodes[id].text, lower).board.updatedCount == b.updatedCount + 2
  {
    UnchangedEditCounts(b, id, lower);
    var once := Edit(b, id, b.nodes[id].text, lower).board;
    UnchangedEditCounts(once, id, lower);
  }

  // ---------------------------------------------------------------- sorting

  /** Equal sort keys keep the order they had in the list before sorting ascending. */
  lemma SortAscendingStable(b: Board, cmp: (string, string) -> int, render: Task -> string, k: NodeId)
    requires Valid(b) && ConsistentComparator(cmp)
    ensures StableSort.Ties(SortAscending(b, cmp, render).order, Ascending(b, cmp, render), k)
         == StableSort.Ties(b.order, Ascending(b, cmp, render), k)
  {
    ComparatorOrders(b, cmp, render);
    StableSort.SortStable(b.order, Ascending(b, cmp, render), k);
  }

  /** Equal sort keys keep the order they had in the list before sorting descending. */
  lemma SortDescendingStable(b: Board, cmp: (string, string) -> int, render: Task -> string, k: NodeId)
    requires Valid(b) && ConsistentComparator(cmp)
    ensures StableSort.Ties(SortDescending(b, cmp, render).order, Descending(b, cmp, render), k)
         == StableSort.Ties(b.order, Descending(b, cmp, render), k)
  {
    ComparatorOrders(b, cmp, render);
    StableSort.SortStable(b.order, Descending(b, cmp, render), k);
  }

  /** Pressing sort-ascending a second time changes nothing. */
  lemma SortAscendingIdempotent(b: Board, cmp: (string, string) -> int, render: Task -> string)
    requires Valid(b) && ConsistentComparator(cmp)
    ensures SortAscending(SortAscending(b, cmp, render), cmp, render) == SortAscending(b, cmp, render)
  {
    var r := SortAscending(b, cmp, render);
    var le := Ascending(r, cmp, render);
    assert StableSort.Sorted(r.order, le) by {
      forall i, j | 0 <= i < j < |r.order| ensures le(r.order[i], r.order[j]) {
        assert SortKey(r, render, r.order[i]) == SortKey(b, render, r.order[i]);
        assert SortKey(r, render, r.order[j]) == SortKey(b, render, r.order[j]);
      }
    }
    StableSort.SortOfSorted(r.order, le);
  }

  /**
   * Sorting does not save: when it moves any task, the store of a saved board
   * no longer matches what is shown, until the next saving event.
   */
  lemma SortLeavesStoreStale(b: Board, cmp: (string, string) -> int, render: Task -> string)
    requires Persisted(b) && ConsistentComparator(cmp)
    requires Visible(SortAscending(b, cmp, render)) != Visible(b)
    ensures !Persisted(SortAscending(b, cmp, render))
  {
    var r := SortAscending(b, cmp, render);
    if Persisted(r) {
      Codec.EncodeInjective(Visible(r), Visible(b));
    }
  }

  // ---------------------------------------------------------------- selection

  /** Delete-selected removes tasks but never counts them as deleted. */
  lemma DeleteSelectedUncounted(b: Board, confirmed: bool)
    requires Valid(b)
    ensures DeleteSelected(b, confirmed).deletedCount == b.deletedCount
    ensures StoredCount(DeleteSelected(b, confirmed).store, DeletedKey) == StoredCount(b.store, DeletedKey)
  {
    var r := DeleteSelected(b, confirmed);
    if r != b {
      assert DeletedKey != TasksKey;
      assert DeletedKey in r.store <==> DeletedKey in r.store - {TasksKey};
      assert DeletedKey in b.store <==> DeletedKey in b.store - {TasksKey};
      if DeletedKey in b.store {
        assert r.store[DeletedKey] == (r.store - {TasksKey})[DeletedKey];
      }
    }
  }

  // ---------------------------------------------------------------- dragging

  /**
   * The page never forgets the last dragged item: once it is deleted, a
   * dragover from a drag that did not start on a list item (no dragging mark)
   * puts it back in the list.
   */
  lemma StaleDragRevivesDeleted(b: Board, id: NodeId, mids: seq<int>, y: int)
    requires Valid(b) && id in b.order && |mids| == |b.order| - 1
    ensures id !in Delete(b, id, true).order && id in Delete(b, id, true).nodes
    ensures |mids| == |DropCandidates(Delete(b, id, true), id, false)|
    ensures id in DragOver(Delete(b, id, true), id, false, mids, y).order
  {
    Seqs.WithoutLength(b.order, id);
  }
}

=== FILE: seqs.dfy ===
/** Sequence facts shared by the list operations: distinctness, filtering, subsequences. */
module Seqs {

  /** No element occurs twice. */
  ghost predicate Distinct<T>(s: seq<T>) {
    forall i, j :: 0 <= i < j < |s| ==> s[i] != s[j]
  }

  /** `r` can be obtained from `s` by dropping elements, keeping the relative order of the rest. */
  predicate IsSubsequence<T(==)>(r: seq<T>, s: seq<T>)
    decreases |s|
  {
    if r == [] then true
    else if s == [] then false
    else if r[0] == s[0] then IsSubsequence(r[1..], s[1..])
    else IsSubsequence(r, s[1..])
  }

  /** The elements of `s` that satisfy `keep`, in their original order. */
  function Filter<T(!new)>(s: seq<T>, keep: T -> bool): (r: seq<T>)
    ensures forall x :: x in r <==> x in s && keep(x)
    ensures |r| <= |s|
  {
    if s == [] then []
    else if keep(s[0]) then [s[0]] + Filter(s[1..], keep)
    else Filter(s[1..], keep)
  }

  /** `s` with every occurrence of `x` removed. */
  function Without<T(!new,==)>(s: seq<T>, x: T): (r: seq<T>)
    ensures forall y :: y in r <==> y in s && y != x
    ensures |r| <= |s|
  {
    if s == [] then []
    else if s[0] == x then Without(s[1..], x)
    else [s[0]] + Without(s[1..], x)
  }

  lemma {:induction false} FilterIsSubsequence<T(!new)>(s: seq<T>, keep: T -> bool)
    ensures IsSubsequence(Filter(s, keep), s)
    decreases |s|
  {
    if s != [] {
      FilterIsSubsequence(s[1..], keep);
      if !keep(s[0]) {
        SubsequenceOfTail(Filter(s[1..], keep), s);
      }
    }
  }

  /** A subsequence of the tail of `s` is a subsequence of `s`. */
  lemma {:induction false} SubsequenceOfTail<T>(r: seq<T>, s: seq<T>)
    requires s != []
    requires IsSubsequence(r, s[1..])
    ensures IsSubsequence(r, s)
    decreases |s|, 0
  {
    if r != [] && r[0] == s[0] {
      // r[0] matches s[0]; the rest of r must then be matched in s[1..]
      SubsequenceDropHead(r, s[1..]);
    }
  }

  /** Dropping the first element of a subsequence keeps it a subsequence. */
  lemma {:induction false} SubsequenceDropHead<T>(r: seq<T>, s: seq<T>)
    requires r != []
    requires IsSubsequence(r, s)
    ensures IsSubsequence(r[1..], s)
    decreases |s|, 1
  {
    assert s != [];
    if r[0] == s[0] {
      SubsequenceOfTail(r[1..], s);
    } else {
      SubsequenceDropHead(r, s[1..]);
      SubsequenceOfTail(r[1..], s);
    }
  }

  lemma {:induction false} FilterDistinct<T(!new)>(s: seq<T>, keep: T -> bool)
    requires Distinct(s)
    ensures Distinct(Filter(s, keep))
    decreases |s|
  {
    if s != [] {
      assert Distinct(s[1..]) by {
        forall i, j | 0 <= i < j < |s[1..]| ensures s[1..][i] != s[1..][j] {
          assert s[1..][i] == s[i + 1] && s[1..][j] == s[j + 1];
        }
      }
      FilterDistinct(s[1..], keep);
      if keep(s[0]) {
        var t := Filter(s[1..], keep);
        assert s[0] !in s[1..] by {
          forall k | 0 <= k < |s[1..]| ensures s[1..][k] != s[0] {
            assert s[1..][k] == s[k + 1];
          }
        }
        assert s[0] !in t;
        var r := [s[0]] + t;
        forall i, j | 0 <= i < j < |r| ensures r[i] != r[j] {
          if i == 0 {
            assert r[j] == t[j - 1];
          } else {
            assert r[i] == t[i - 1] && r[j] == t[j - 1];
          }
        }
      }
    }
  }

  /** In a sequence without repetitions, removing `s[k]` removes exactly position `k`. */
  lemma {:induction false} WithoutAt<T(!new)>(s: seq<T>, k: nat)
    requires Distinct(s)
    requires k < |s|
    ensures Without(s, s[k]) == s[..k] + s[k + 1..]
    decreases |s|
  {
    var x := s[k];
    if k == 0 {
      assert x !in s[1..] by {
        forall m | 0 <= m < |s[1..]| ensures s[1..][m] != x {
          assert s[1..][m] == s[m + 1];
        }
      }
      WithoutAbsent(s[1..], x);
    } else {
      assert s[0] != x;
      var t := s[1..];
      assert Distinct(t) by {
        forall i, j | 0 <= i < j < |t| ensures t[i] != t[j] {
          assert t[i] == s[i + 1] && t[j] == s[j + 1];
        }
      }
      assert t[k - 1] == x;
      WithoutAt(t, k - 1);
      assert s[..k] + s[k + 1..] == [s[0]] + (t[..k - 1] + t[k..]);
    }
  }

  /** Removing an element that does not occur changes nothing. */
  lemma {:induction false} WithoutAbsent<T(!new)>(s: seq<T>, x: T)
    requires x !in s
    ensures Without(s, x) == s
    decreases |s|
  {
    if s != [] {
      WithoutAbsent(s[1..], x);
      assert [s[0]] + s[1..] == s;
    }
  }

  /** Removing an element distributes over concatenation. */
  lemma {:induction false} WithoutConcat<T(!new)>(a: seq<T>, b: seq<T>, x: T)
    ensures Without(a + b, x) == Without(a, x) + Without(b, x)
    decreases |a|
  {
    if a != [] {
      assert (a + b)[0] == a[0];
      assert (a + b)[1..] == a[1..] + b;
      WithoutConcat(a[1..], b, x);
    } else {
      assert a + b == b;
    }
  }

  lemma {:induction false} WithoutDistinct<T(!new)>(s: seq<T>, x: T)
    requires Distinct(s)
    ensures Distinct(Without(s, x))
    decreases |s|
  {
    if s != [] {
      var t := s[1..];
      assert Distinct(t) by {
        forall i, j | 0 <= i < j < |t| ensures t[i] != t[j] {
          assert t[i] == s[i + 1] && t[j] == s[j + 1];
        }
      }
      WithoutDistinct(t, x);
      if s[0] != x {
        var w := Without(t, x);
        assert s[0] !in t by {
          forall m | 0 <= m < |t| ensures t[m] != s[0] {
            assert t[m] == s[m + 1];
          }
        }
        var r := [s[0]] + w;
        forall i, j | 0 <= i < j < |r| ensures r[i] != r[j] {
          if i == 0 {
            assert r[j] == w[j - 1];
          } else {
            assert r[i] == w[i - 1] && r[j] == w[j - 1];
          }
        }
      }
    }
  }

  /** A sequence without repetitions is characterised by its multiset having no count above one. */
  lemma {:induction false} DistinctMultiset<T>(s: seq<T>)
    ensures Distinct(s) <==> forall x :: multiset(s)[x] <= 1
    decreases |s|
  {
    if s != [] {
      var t := s[1..];
      assert s == [s[0]] + t;
      DistinctMultiset(t);
      assert multiset(s) == multiset{s[0]} + multiset(t);
      if Distinct(s) {
        assert Distinct(t) by {
          forall i, j | 0 <= i < j < |t| ensures t[i] != t[j] {
            assert t[i] == s[i + 1] && t[j] == s[j + 1];
          }
        }
        assert s[0] !in t by {
          forall m | 0 <= m < |t| ensures t[m] != s[0] {
            assert t[m] == s[m + 1];
          }
        }
        forall x ensures multiset(s)[x] <= 1 {
          if x == s[0] {
            assert multiset(t)[x] == 0;
          }
        }
      } else {
        var i, j :| 0 <= i < j < |s| && s[i] == s[j];
        if i == 0 {
          assert s[j] == t[j - 1];
          assert multiset(t)[s[0]] >= 1;
          assert multiset(s)[s[0]] >= 2;
        } else {
          assert t[i - 1] == s[i] && t[j - 1] == s[j];
          assert !Distinct(t);
          var x :| multiset(t)[x] > 1;
          assert multiset(s)[x] > 1;
        }
      }
    }
  }

  /** Rearranging a sequence without repetitions cannot create one. */
  lemma PermutationDistinct<T>(a: seq<T>, b: seq<T>)
    requires multiset(a) == multiset(b)
    requires Distinct(b)
    ensures Distinct(a)
  {
    DistinctMultiset(a);
    DistinctMultiset(b);
  }

  /** Removing an element that occurs once in a sequence without repetitions shortens it by one. */
  lemma {:induction false} WithoutLength<T(!new)>(s: seq<T>, x: T)
    requires Distinct(s)
    requires x in s
    ensures |Without(s, x)| == |s| - 1
  {
    WithoutAt(s, IndexOf(s, x));
  }

  /** Appending a new element keeps a sequence free of repetitions. */
  lemma DistinctAppend<T>(s: seq<T>, x: T)
    requires Distinct(s)
    requires x !in s
    ensures Distinct(s + [x])
  {
    var r := s + [x];
    forall i, j | 0 <= i < j < |r| ensures r[i] != r[j] {
      assert r[i] == s[i];
      if j < |s| {
        assert r[j] == s[j];
      }
    }
  }

  /** Every single removal from a sequence without repetitions removes exactly one position. */
  lemma WithoutAtEvery<T(!new)>(s: seq<T>)
    requires Distinct(s)
    ensures forall k :: 0 <= k < |s| ==> Without(s, s[k]) == s[..k] + s[k + 1..]
  {
    forall k | 0 <= k < |s| ensures Without(s, s[k]) == s[..k] + s[k + 1..] {
      WithoutAt(s, k);
    }
  }

  lemma WithoutIfAbsent<T(!new)>(s: seq<T>, x: T)
    ensures x !in s ==> Without(s, x) == s
  {
    if x !in s {
      WithoutAbsent(s, x);
    }
  }

  /** The position of the first occurrence of `x` in `s`. */
  function IndexOf<T(==)>(s: seq<T>, x: T): (k: nat)
    requires x in s
    ensures k < |s| && s[k] == x
    ensures forall j :: 0 <= j < k ==> s[j] != x
  {
    if s[0] == x then 0 else 1 + IndexOf(s[1..], x)
  }

  /** Removing an element that occurs once takes exactly one copy of it out of the multiset. */
  lemma WithoutMultiset<T(!new)>(s: seq<T>, x: T)
    requires Distinct(s) && x in s
    ensures multiset(s) == multiset(Without(s, x)) + multiset{x}
  {
    WithoutMultisetAt(s, x, IndexOf(s, x));
  }

  lemma WithoutMultisetAt<T(!new)>(s: seq<T>, x: T, p: nat)
    requires Distinct(s) && p < |s| && s[p] == x
    ensures multiset(s) == multiset(Without(s, x)) + multiset{x}
  {
    WithoutAt(s, p);
    var a, c := s[..p], s[p + 1..];
    SplitAt(s, p);
    MultisetSplice(a, x, c);
  }

  lemma SplitAt<T>(s: seq<T>, p: nat)
    requires p < |s|
    ensures s == s[..p] + [s[p]] + s[p + 1..]
  {
    assert s == s[..p] + s[p..];
    SliceCons(s, p);
  }

  lemma MultisetSplice<T>(a: seq<T>, x: T, c: seq<T>)
    ensures multiset(a + [x] + c) == multiset(a + c) + multiset{x}
  {
  }

  /** Removing `x` from a sequence where it occurs once, between `a` and `c`, leaves `a + c`. */
  lemma WithoutSplice<T(!new)>(a: seq<T>, x: T, c: seq<T>)
    requires x !in a && x !in c
    ensures Without(a + [x] + c, x) == a + c
  {
    var ax := a + [x];
    WithoutConcat(ax, c, x);
    WithoutConcat(a, [x], x);
    WithoutAbsent(a, x);
    WithoutAbsent(c, x);
    WithoutSingle(x);
    assert a + [] == a;
  }

  lemma WithoutSingle<T(!new)>(x: T)
    ensures Without([x], x) == []
  {
    assert [x][1..] == [];
  }

  lemma AppendAssoc<T>(a: seq<T>, b: seq<T>, c: seq<T>)
    ensures (a + b) + c == a + (b + c)
  {
  }

  lemma SliceCons<T>(s: seq<T>, i: nat)
    requires i < |s|
    ensures s[i..] == [s[i]] + s[i + 1..]
  {
  }
}

=== FILE: sorting.dfy ===
/**
 * Stable sorting under a caller-supplied comparison, the behaviour
 * Array.prototype.sort guarantees for a consistent comparator.
 */
module StableSort {

  /** `le` is total and transitive: ties are allowed, contradictions are not. */
  ghost predicate TotalPreorder<T(!new)>(le: (T, T) -> bool) {
    && (forall x, y :: le(x, y) || le(y, x))
    && (forall x, y, z :: le(x, y) && le(y, z) ==> le(x, z))
  }

  /** Every element is `le` every later element. */
  ghost predicate Sorted<T>(s: seq<T>, le: (T, T) -> bool) {
    forall i, j :: 0 <= i < j < |s| ==> le(s[i], s[j])
  }

  /** `x` and `y` compare equal. */
  predicate Tie<T>(le: (T, T) -> bool, x: T, y: T) {
    le(x, y) && le(y, x)
  }

  /** The elements of `s` that compare equal to `k`, in their order in `s`. */
  function Ties<T>(s: seq<T>, le: (T, T) -> bool, k: T): seq<T> {
    if s == [] then []
    else (if Tie(le, s[0], k) then [s[0]] else []) + Ties(s[1..], le, k)
  }

  /** Places `x` before the first element it is `le`, so it stays ahead of its ties. */
  function Insert<T>(x: T, t: seq<T>, le: (T, T) -> bool): (r: seq<T>)
    ensures multiset(r) == multiset(t) + multiset{x}
  {
    if t == [] then [x]
    else if le(x, t[0]) then [x] + t
    else
      assert t == [t[0]] + t[1..];
      [t[0]] + Insert(x, t[1..], le)
  }

  /** Insertion sort from the back, each element inserted ahead of its later ties. */
  function Sort<T>(s: seq<T>, le: (T, T) -> bool): (r: seq<T>)
    ensures multiset(r) == multiset(s)
  {
    if s == [] then []
    else
      assert s == [s[0]] + s[1..];
      Insert(s[0], Sort(s[1..], le), le)
  }

  lemma {:induction false} InsertSorted<T(!new)>(x: T, t: seq<T>, le: (T, T) -> bool)
    requires TotalPreorder(le)
    requires Sorted(t, le)
    ensures Sorted(Insert(x, t, le), le)
    decreases |t|
  {
    if t != [] && !le(x, t[0]) {
      var u := t[1..];
      TailSorted(t, le);
      HeadFirst(t, le);
      InsertSorted(x, u, le);
      var w := Insert(x, u, le);
      assert le(t[0], x);
      forall e | e in w ensures le(t[0], e) {
        assert e in multiset(w);
        if e != x {
          assert e in multiset(u);
          assert e in t;
        }
      }
      ConsSorted(t[0], w, le);
    } else if t != [] {
      HeadFirst(t, le);
      ConsSorted(x, t, le);
    }
  }

  lemma TailSorted<T>(t: seq<T>, le: (T, T) -> bool)
    requires t != [] && Sorted(t, le)
    ensures Sorted(t[1..], le)
  {
    var u := t[1..];
    forall i, j | 0 <= i < j < |u| ensures le(u[i], u[j]) {
      assert u[i] == t[i + 1] && u[j] == t[j + 1];
    }
  }

  lemma HeadFirst<T(!new)>(t: seq<T>, le: (T, T) -> bool)
    requires TotalPreorder(le) && t != [] && Sorted(t, le)
    ensures forall e :: e in t ==> le(t[0], e)
  {
    assert le(t[0], t[0]);
  }

  lemma ConsSorted<T>(h: T, w: seq<T>, le: (T, T) -> bool)
    requires Sorted(w, le)
    requires forall e :: e in w ==> le(h, e)
    ensures Sorted([h] + w, le)
  {
    var r := [h] + w;
    forall i, j | 0 <= i < j < |r| ensures le(r[i], r[j]) {
      if i == 0 {
        assert r[j] == w[j - 1];
      } else {
        assert r[i] == w[i - 1] && r[j] == w[j - 1];
      }
    }
  }

  /** The result is in non-decreasing order. */
  lemma {:induction false} SortSorted<T(!new)>(s: seq<T>, le: (T, T) -> bool)
    requires TotalPreorder(le)
    ensures Sorted(Sort(s, le), le)
    decreases |s|
  {
    if s != [] {
      SortSorted(s[1..], le);
      InsertSorted(s[0], Sort(s[1..], le), le);
    }
  }

  /** Inserting into a sorted sequence adds `x` to the ties of `k` at their front, if it ties. */
  lemma {:induction false} InsertTies<T(!new)>(x: T, t: seq<T>, le: (T, T) -> bool, k: T)
    requires TotalPreorder(le)
    requires Sorted(t, le)
    ensures Ties(Insert(x, t, le), le, k) == (if Tie(le, x, k) then [x] else []) + Ties(t, le, k)
    decreases |t|
  {
    if t == [] {
      assert Insert(x, t, le) == [x];
      assert [x][1..] == [];
    } else if le(x, t[0]) {
      assert ([x] + t)[1..] == t;
    } else {
      var u := t[1..];
      TailSorted(t, le);
      var w := Insert(x, u, le);
      InsertTies(x, u, le, k);
      assert Insert(x, t, le) == [t[0]] + w;
      assert [t[0]] + u == t;
      TiesCons(t[0], w, le, k);
      TiesCons(t[0], u, le, k);
      NoDoubleTie(x, t[0], le, k);
      SwapAroundEmpty(if Tie(le, t[0], k) then [t[0]] else [], if Tie(le, x, k) then [x] else [], Ties(u, le, k));
    }
  }

  lemma SwapAroundEmpty<T>(a: seq<T>, b: seq<T>, c: seq<T>)
    requires a == [] || b == []
    ensures a + (b + c) == b + (a + c)
  {
  }

  /** An element strictly after another cannot tie with the same `k` as it. */
  lemma NoDoubleTie<T(!new)>(x: T, y: T, le: (T, T) -> bool, k: T)
    requires TotalPreorder(le) && !le(x, y)
    ensures !(Tie(le, x, k) && Tie(le, y, k))
  {
  }

  lemma TiesCons<T>(h: T, w: seq<T>, le: (T, T) -> bool, k: T)
    ensures Ties([h] + w, le, k) == (if Tie(le, h, k) then [h] else []) + Ties(w, le, k)
  {
    assert ([h] + w)[1..] == w;
  }

  /** Elements that compare equal keep the relative order they had before sorting. */
  lemma {:induction false} SortStable<T(!new)>(s: seq<T>, le: (T, T) -> bool, k: T)
    requires TotalPreorder(le)
    ensures Ties(Sort(s, le), le, k) == Ties(s, le, k)
    decreases |s|
  {
    if s != [] {
      SortStable(s[1..], le, k);
      SortSorted(s[1..], le);
      InsertTies(s[0], Sort(s[1..], le), le, k);
    }
  }

  /** Sorting what is already sorted changes nothing; in particular sorting is idempotent. */
  lemma {:induction false} SortOfSorted<T(!new)>(s: seq<T>, le: (T, T) -> bool)
    requires Sorted(s, le)
    ensures Sort(s, le) == s
    decreases |s|
  {
    if s != [] {
      var u := s[1..];
      assert Sorted(u, le) by {
        forall i, j | 0 <= i < j < |u| ensures le(u[i], u[j]) {
          assert u[i] == s[i + 1] && u[j] == s[j + 1];
        }
      }
      SortOfSorted(u, le);
      if u != [] {
        assert le(s[0], u[0]) by {
          assert u[0] == s[1];
        }
      }
      assert [s[0]] + u == s;
    }
  }
}

=== FILE: taskify.dfy ===
/**
 * The task list of the page as a state machine: one pure transition per user
 * event. List items are nodes with identities, because the reset-order
 * snapshot holds references to the items themselves, not copies of them.
 */
module Taskify {
  import opened Wrappers
  import opened Tasks
  import opened Seqs
  import opened Text
  import Codec
  import StableSort
  import Drag

  /** Identity of a list item element. */
  type NodeId = nat

  /** The browser's key-value store: string keys, string values. */
  type Store = map<string, string>

  const TasksKey: string := "tasks"
  const DeletedKey: string := "deletedTaskCount"
  const UpdatedKey: string := "updatedTaskCount"

  /**
   * nodes:    every list item created since the page loaded (a removed item
   *           stays alive while the reset snapshot refers to it);
   * order:    the items currently in the list, top to bottom;
   * original: the reset snapshot, every item in creation order, append-only;
   * nextId:   the identity the next created item gets;
   * deletedCount, updatedCount: the two counters held in memory;
   * store:    the persisted key-value store.
   */
  datatype Board = Board(
    nodes: map<NodeId, Task>,
    order: seq<NodeId>,
    original: seq<NodeId>,
    nextId: NodeId,
    deletedCount: nat,
    updatedCount: nat,
    store: Store)

  /** Why an add or an edit was refused (the alert the user sees). */
  datatype Rejection = EmptyInput | DuplicateTask

  /** The board after an add or edit event, and the refusal if there was one. */
  datatype Reply = Reply(board: Board, rejected: Option<Rejection>)

  /**
   * Reading the stored task list failed: the load handler ends with an
   * exception, after the counters were read and every event handler attached.
   */
  datatype StartupError = CorruptTasks

  /** The board the page runs with after loading, and the load error if there was one. */
  datatype Started = Started(board: Board, error: Option<StartupError>)

  /**
   * Well-formed boards: the snapshot lists every created item exactly once,
   * the list shows each item at most once and only items that were created,
   * and fresh identities are really fresh.
   */
  ghost predicate Valid(b: Board) {
    && (forall id :: id in b.nodes <==> id in b.original)
    && (forall id :: id in b.nodes ==> id < b.nextId)
    && (forall id :: id in b.order ==> id in b.original)
    && Distinct(b.original)
    && Distinct(b.order)
  }

  /** The tasks as shown, top to bottom. */
  function Visible(b: Board): seq<Task>
    requires Valid(b)
  {
    seq(|b.order|, i requires 0 <= i < |b.order| => b.nodes[b.order[i]])
  }

  /** The stored task list is the one shown. */
  ghost predicate Persisted(b: Board) {
    && Valid(b)
    && TasksKey in b.store
    && b.store[TasksKey] == Codec.EncodeTasks(Visible(b))
  }

  /** `s` holds the count `n` under `key`, readable as a number. */
  ghost predicate Holds(s: Store, key: string, n: nat) {
    key in s && Codec.ParseDecimal(s[key]) == Some(n)
  }

  /** Only node `id` may differ; the list, the snapshot and identities are untouched. */
  ghost predicate OnlyNodeChanged(b: Board, r: Board, id: NodeId) {
    && r.nodes.Keys == b.nodes.Keys
    && (forall x :: x in b.nodes && x != id ==> r.nodes[x] == b.nodes[x])
    && r.order == b.order
    && r.original == b.original
    && r.nextId == b.nextId
  }

  /** Both counters unchanged and no stored entry other than the task list rewritten. */
  ghost predicate CountersKept(b: Board, r: Board) {
    && r.deletedCount == b.deletedCount
    && r.updatedCount == b.updatedCount
    && r.store - {TasksKey} == b.store - {TasksKey}
  }

  /**
   * The stored value of a counter: the number a decimal numeral stands for,
   * and 0 when the key is absent or the value is empty (`value || 0`).
   */
  function StoredCount(s: Store, key: string): (r: nat)
    ensures key !in s ==> r == 0
    ensures key in s && s[key] == "" ==> r == 0
    ensures forall n: nat :: key in s && s[key] == Codec.Decimal(n) ==> r == n
    ensures r != 0 ==> Holds(s, key, r)
  {
    assert forall n: nat :: key in s && s[key] == Codec.Decimal(n) ==> Codec.ParseDecimal(s[key]) == Some(n) by {
      forall n: nat | key in s && s[key] == Codec.Decimal(n) {
        Codec.DecimalRoundTrip(n);
      }
    }
    if key in s then
      match Codec.ParseDecimal(s[key])
      case Some(n) => n
      case None => 0
    else 0
  }

  // ---------------------------------------------------------------- persistence

  /** Writes the shown task list to the store (saveTasks). */
  function Save(b: Board): (r: Board)
    requires Valid(b)
    ensures Persisted(r)
    ensures r.(store := b.store) == b
    ensures Visible(r) == Visible(b)
    ensures r.store - {TasksKey} == b.store - {TasksKey}
  {
    b.(store := b.store[TasksKey := Codec.EncodeTasks(Visible(b))])
  }

  /** Creates a list item for `t` at the end of the list and of the snapshot (addTaskToDOM). */
  function Append(b: Board, t: Task): (r: Board)
    requires Valid(b)
    ensures Valid(r)
    ensures b.nextId !in b.nodes
    ensures r.nodes == b.nodes[b.nextId := t]
    ensures r.order == b.order + [b.nextId] && r.original == b.original + [b.nextId]
    ensures Visible(r) == Visible(b) + [t]
    ensures r.deletedCount == b.deletedCount && r.updatedCount == b.updatedCount && r.store == b.store
  {
    var id := b.nextId;
    DistinctAppend(b.original, id);
    DistinctAppend(b.order, id);
    var r := b.(nodes := b.nodes[id := t], order := b.order + [id], original := b.original + [id], nextId := id + 1);
    assert Visible(r) == Visible(b) + [t] by {
      forall i | 0 <= i < |b.order| ensures Visible(r)[i] == Visible(b)[i] {
        assert b.order[i] in b.nodes;
      }
    }
    r
  }

  /**
   * Tasks loaded from the store are appended one by one, each followed by a
   * save, with no duplicate check (loadTasks).
   */
  function LoadInto(b: Board, ts: seq<Task>): (r: Board)
    requires Valid(b)
    ensures Valid(r)
    ensures Visible(r) == Visible(b) + ts
    ensures |r.order| == |b.order| + |ts| && r.order[..|b.order|] == b.order
    ensures r.original == b.original + r.order[|b.order|..]
    ensures forall id :: id in b.nodes ==> id in r.nodes && r.nodes[id] == b.nodes[id]
    ensures r.deletedCount == b.deletedCount && r.updatedCount == b.updatedCount
    ensures ts == [] ==> r == b
    ensures ts != [] ==> Persisted(r) && r.store - {TasksKey} == b.store - {TasksKey}
    decreases |ts|
  {
    if ts == [] then b
    else
      var next := Save(Append(b, ts[0]));
      var r := LoadInto(next, ts[1..]);
      LoadStep(b, ts, next, r);
      r
  }

  /** One step of the load loop: appending `ts[0]` and then the rest appends all of `ts`. */
  lemma LoadStep(b: Board, ts: seq<Task>, next: Board, r: Board)
    requires Valid(b) && ts != []
    requires next == Save(Append(b, ts[0]))
    requires Valid(r)
    requires Visible(r) == Visible(next) + ts[1..]
    requires |r.order| == |next.order| + |ts[1..]| && r.order[..|next.order|] == next.order
    requires r.original == next.original + r.order[|next.order|..]
    requires forall id :: id in next.nodes ==> id in r.nodes && r.nodes[id] == next.nodes[id]
    ensures Visible(r) == Visible(b) + ts
    ensures |r.order| == |b.order| + |ts| && r.order[..|b.order|] == b.order
    ensures r.original == b.original + r.order[|b.order|..]
    ensures forall id :: id in b.nodes ==> id in r.nodes && r.nodes[id] == b.nodes[id]
  {
    LoadStepShown(Visible(b), ts, Visible(next), Visible(r));
    LoadStepOrder(b.order, b.original, b.nextId, next.order, next.original, r.order, r.original);
  }

  lemma LoadStepShown(shown: seq<Task>, ts: seq<Task>, shown1: seq<Task>, shown2: seq<Task>)
    requires ts != [] && shown1 == shown + [ts[0]] && shown2 == shown1 + ts[1..]
    ensures shown2 == shown + ts
  {
    assert [ts[0]] + ts[1..] == ts;
    AppendAssoc(shown, [ts[0]], ts[1..]);
  }

  lemma LoadStepOrder(order: seq<NodeId>, original: seq<NodeId>, id: NodeId,
                      order1: seq<NodeId>, original1: seq<NodeId>, order2: seq<NodeId>, original2: seq<NodeId>)
    requires order1 == order + [id] && original1 == original + [id]
    requires |order2| >= |order1| && order2[..|order1|] == order1
    requires original2 == original1 + order2[|order1|..]
    ensures order2[..|order|] == order
    ensures original2 == original + order2[|order|..]
  {
    assert order2[..|order|] == order2[..|order1|][..|order|];
    var added := order2[|order1|..];
    assert order2[|order|] == order1[|order|] == id;
    SliceCons(order2, |order|);
    AppendAssoc(original, [id], added);
  }

  /**
   * Page start: the counters are read (absent means 0), then the stored task
   * list is loaded into an empty list with an empty snapshot. When the list
   * cannot be read, loading ends there and the page runs on with the empty
   * list, the counters already read and the store as it was.
   */
  function Startup(s: Store): (r: Started)
    ensures r.error.Some? <==> TasksKey in s && Codec.DecodeTasks(s[TasksKey]).None?
    ensures Valid(r.board) && r.board.order == r.board.original
    ensures r.board.deletedCount == StoredCount(s, DeletedKey) && r.board.updatedCount == StoredCount(s, UpdatedKey)
    ensures r.error.None? ==> Visible(r.board) == (if TasksKey in s then Codec.DecodeTasks(s[TasksKey]).value else [])
    ensures r.error.Some? ==> r.board.order == [] && r.board.store == s
    ensures r.board.store - {TasksKey} == s - {TasksKey}
    ensures r.board.order == [] ==> r.board.store == s
    ensures r.error.None? && r.board.order != [] ==> Persisted(r.board)
  {
    var empty := Board(map[], [], [], 0, StoredCount(s, DeletedKey), StoredCount(s, UpdatedKey), s);
    var stored := if TasksKey in s then Codec.DecodeTasks(s[TasksKey]) else Some([]);
    match stored
    case None => Started(empty, Some(CorruptTasks))
    case Some(ts) =>
      var r := LoadInto(empty, ts);
      assert r.order[..0] == [];
      Started(r, None)
  }

  // ---------------------------------------------------------------- add and edit

  /**
   * Some shown task other than the `detached` ones has the same text as
   * `text` after lower-casing (taskExists).
   */
  predicate TaskExists(b: Board, text: string, lower: string -> string, detached: set<NodeId>): (r: bool)
    requires Valid(b)
    ensures r <==> exists id :: id in b.order && id !in detached && lower(b.nodes[id].text) == lower(text)
  {
    AnyMatches(b, b.order, lower(text), lower, detached)
  }

  /** Some item of `ids` outside `detached` lower-cases to `key`, checked in list order (Array.prototype.some). */
  predicate AnyMatches(b: Board, ids: seq<NodeId>, key: string, lower: string -> string, detached: set<NodeId>): (r: bool)
    requires forall id :: id in ids ==> id in b.nodes
    ensures r <==> exists id :: id in ids && id !in detached && lower(b.nodes[id].text) == key
    decreases |ids|
  {
    if ids == [] then false
    else if ids[0] !in detached && lower(b.nodes[ids[0]].text) == key then true
    else
      var more := AnyMatches(b, ids[1..], key, lower, detached);
      assert forall id :: id in ids <==> id == ids[0] || id in ids[1..];
      more
  }

  /** `r` is `b` with one new item for `t` at the end of the list and of the snapshot, saved. */
  ghost predicate AppendedOne(b: Board, r: Board, t: Task) {
    && Valid(b)
    && Persisted(r)
    && Visible(r) == Visible(b) + [t]
    && |r.order| == |b.order| + 1
    && r.order[..|b.order|] == b.order
    && var id := r.order[|b.order|];
    && id !in b.nodes
    && r.original == b.original + [id]
    && r.nodes == b.nodes[id := t]
    && CountersKept(b, r)
  }

  /** The add button: the input is trimmed, refused when empty or already present, else appended. */
  function Add(b: Board, input: string, lower: string -> string): (r: Reply)
    requires Valid(b)
    ensures Valid(r.board)
    ensures r.rejected == Some(EmptyInput) <==> Trim(input) == []
    ensures r.rejected == Some(DuplicateTask) <==> Trim(input) != [] && TaskExists(b, Trim(input), lower, {})
    ensures r.rejected.Some? ==> r.board == b
    ensures r.rejected.None? ==> AppendedOne(b, r.board, Task(Trim(input), false, false))
  {
    var text := Trim(input);
    if text == [] then Reply(b, Some(EmptyInput))
    else if TaskExists(b, text, lower, {}) then Reply(b, Some(DuplicateTask))
    else
      var r := Save(Append(b, Task(text, false, false)));
      assert r.order[..|b.order|] == b.order;
      Reply(r, None)
  }

  /**
   * Committing an inline edit of item `id`. The item's own text is detached
   * while editing, so it never counts as a duplicate; a text equal to the
   * current one is always accepted. Refused or not, the list is saved.
   */
  function Edit(b: Board, id: NodeId, input: string, lower: string -> string): (r: Reply)
    requires Valid(b) && id in b.nodes
    ensures Persisted(r.board)
    ensures r.rejected == Some(EmptyInput) <==> Trim(input) == []
    ensures r.rejected == Some(DuplicateTask)
        <==> Trim(input) != [] && Trim(input) != b.nodes[id].text && TaskExists(b, Trim(input), lower, {id})
    ensures r.rejected.Some? ==> r.board.(store := b.store) == b && r.board.store - {TasksKey} == b.store - {TasksKey}
    ensures r.rejected.None? ==> EditedText(b, r.board, id, Trim(input))
  {
    var value := Trim(input);
    if value == [] then Reply(Save(b), Some(EmptyInput))
    else if TaskExists(b, value, lower, {id}) && value != b.nodes[id].text then Reply(Save(b), Some(DuplicateTask))
    else Reply(Rename(b, id, value), None)
  }

  /**
   * Only item `id`'s text changed, to `value`; the updated counter went up by
   * one and is stored; no other stored entry but the task list was rewritten.
   */
  ghost predicate EditedText(b: Board, r: Board, id: NodeId, value: string)
    requires id in b.nodes
  {
    && OnlyNodeChanged(b, r, id)
    && r.nodes[id] == b.nodes[id].(text := value)
    && r.updatedCount == b.updatedCount + 1
    && r.deletedCount == b.deletedCount
    && Holds(r.store, UpdatedKey, b.updatedCount + 1)
    && r.store - {TasksKey, UpdatedKey} == b.store - {TasksKey, UpdatedKey}
  }

  /** The accepted branch of an edit. */
  function Rename(b: Board, id: NodeId, value: string): (r: Board)
    requires Valid(b) && id in b.nodes
    ensures Persisted(r)
    ensures EditedText(b, r, id, value)
  {
    var n := b.updatedCount + 1;
    Codec.DecimalRoundTrip(n);
    var edited := b.(nodes := b.nodes[id := b.nodes[id].(text := value)], updatedCount := n,
                     store := b.store[UpdatedKey := Codec.Decimal(n)]);
    var r := Save(edited);
    assert r.store - {TasksKey, UpdatedKey} == b.store - {TasksKey, UpdatedKey};
    r
  }

  // ---------------------------------------------------------------- per-item buttons

  /** The check button flips the item's completed flag, then the list is saved. */
  function ToggleCompleted(b: Board, id: NodeId): (r: Board)
    requires Valid(b) && id in b.nodes
    ensures Persisted(r)
    ensures OnlyNodeChanged(b, r, id) && CountersKept(b, r)
    ensures r.nodes[id] == b.nodes[id].(completed := !b.nodes[id].completed)
  {
    Save(b.(nodes := b.nodes[id := b.nodes[id].(completed := !b.nodes[id].completed)]))
  }

  /** The selection checkbox changed to `value`, then the list is saved. */
  function SetChecked(b: Board, id: NodeId, value: bool): (r: Board)
    requires Valid(b) && id in b.nodes
    ensures Persisted(r)
    ensures OnlyNodeChanged(b, r, id) && CountersKept(b, r)
    ensures r.nodes[id] == b.nodes[id].(checked := value)
  {
    Save(b.(nodes := b.nodes[id := b.nodes[id].(checked := value)]))
  }

  /**
   * The delete button, after the confirmation dialog: the item leaves the
   * list (not the snapshot) and the deleted counter goes up and is stored.
   */
  function Delete(b: Board, id: NodeId, confirmed: bool): (r: Board)
    requires Valid(b) && id in b.nodes
    ensures !confirmed ==> r == b
    ensures confirmed ==>
      && Persisted(r)
      && r.nodes == b.nodes && r.original == b.original && r.nextId == b.nextId
      && (forall k :: 0 <= k < |b.order| && b.order[k] == id ==> r.order == b.order[..k] + b.order[k + 1..])
      && (id !in b.order ==> r.order == b.order)
      && r.deletedCount == b.deletedCount + 1
      && r.updatedCount == b.updatedCount
      && Holds(r.store, DeletedKey, b.deletedCount + 1)
      && r.store - {TasksKey, DeletedKey} == b.store - {TasksKey, DeletedKey}
  {
    if !confirmed then b
    else
      var n := b.deletedCount + 1;
      Codec.DecimalRoundTrip(n);
      WithoutDistinct(b.order, id);
      WithoutAtEvery(b.order);
      WithoutIfAbsent(b.order, id);
      var r := Save(b.(order := Without(b.order, id), deletedCount := n, store := b.store[DeletedKey := Codec.Decimal(n)]));
      assert r.store - {TasksKey, DeletedKey} == b.store - {TasksKey, DeletedKey};
      r
  }

  // ---------------------------------------------------------------- list buttons

  /** A shown item whose selection checkbox is ticked. */
  predicate IsSelected(b: Board, id: NodeId): (r: bool)
    requires Valid(b)
    ensures r <==> exists i :: 0 <= i < |b.order| && b.order[i] == id && Visible(b)[i].checked
  {
    assert id in b.order ==> b.order[IndexOf(b.order, id)] == id;
    id in b.order && b.nodes[id].checked
  }

  /**
   * Delete-selected (button or Delete key): with no ticked item nothing
   * happens; otherwise, after confirmation, every ticked item leaves the
   * list. The deleted counter is not touched.
   */
  function DeleteSelected(b: Board, confirmed: bool): (r: Board)
    requires Valid(b)
    ensures (!confirmed || forall id :: !IsSelected(b, id)) ==> r == b
    ensures confirmed && (exists id :: IsSelected(b, id)) ==>
      && Persisted(r)
      && (forall id :: id in r.order <==> id in b.order && !IsSelected(b, id))
      && IsSubsequence(r.order, b.order)
      && r.nodes == b.nodes && r.original == b.original && r.nextId == b.nextId
      && CountersKept(b, r)
  {
    var selected := Filter(b.order, id => id in b.nodes && b.nodes[id].checked);
    assert forall id :: IsSelected(b, id) ==> id in selected;
    if |selected| == 0 || !confirmed then b
    else
      assert selected[0] in selected && IsSelected(b, selected[0]);
      var keep := id => !(id in b.nodes && b.nodes[id].checked);
      var survivors := Filter(b.order, keep);
      FilterDistinct(b.order, keep);
      FilterIsSubsequence(b.order, keep);
      Save(b.(order := survivors))
  }

  /**
   * Clear-all, after confirmation: the list is emptied, the whole store is
   * wiped and then holds just the empty task list, and the in-memory deleted
   * counter is reset. The updated counter and the snapshot stay in memory.
   */
  function ClearAll(b: Board, confirmed: bool): (r: Board)
    requires Valid(b)
    ensures !confirmed ==> r == b
    ensures confirmed ==>
      && Valid(r)
      && r.order == []
      && r.nodes == b.nodes && r.original == b.original && r.nextId == b.nextId
      && r.deletedCount == 0
      && r.updatedCount == b.updatedCount
      && r.store == map[TasksKey := "[]"]
  {
    if !confirmed then b
    else
      var cleared := b.(order := [], deletedCount := 0, store := map[]);
      assert Visible(cleared) == [];
      assert Codec.EncodeTasks([]) == "[]";
      Save(cleared)
  }

  /** The reset button: the list becomes the snapshot, removed items included, and is saved. */
  function Reset(b: Board): (r: Board)
    requires Valid(b)
    ensures Persisted(r)
    ensures r.order == b.original
    ensures r.(order := b.order, store := b.store) == b
    ensures CountersKept(b, r)
  {
    Save(b.(order := b.original))
  }

  // ---------------------------------------------------------------- sorting

  /**
   * What String.prototype.localeCompare must satisfy for the sort to be
   * well defined: "not after" is total and transitive.
   */
  ghost predicate ConsistentComparator(cmp: (string, string) -> int) {
    && (forall x, y :: cmp(x, y) <= 0 || cmp(y, x) <= 0)
    && (forall x, y, z :: cmp(x, y) <= 0 && cmp(y, z) <= 0 ==> cmp(x, z) <= 0)
  }

  /** The text an item is sorted by (its whole text content, rendered by `render`). */
  function SortKey(b: Board, render: Task -> string, id: NodeId): string {
    if id in b.nodes then render(b.nodes[id]) else ""
  }

  /** Item `x` may precede item `y` in ascending order. */
  function Ascending(b: Board, cmp: (string, string) -> int, render: Task -> string): (NodeId, NodeId) -> bool {
    (x: NodeId, y: NodeId) => cmp(SortKey(b, render, x), SortKey(b, render, y)) <= 0
  }

  /** Item `x` may precede item `y` in descending order. */
  function Descending(b: Board, cmp: (string, string) -> int, render: Task -> string): (NodeId, NodeId) -> bool {
    (x: NodeId, y: NodeId) => cmp(SortKey(b, render, y), SortKey(b, render, x)) <= 0
  }

  lemma ComparatorOrders(b: Board, cmp: (string, string) -> int, render: Task -> string)
    requires ConsistentComparator(cmp)
    ensures StableSort.TotalPreorder(Ascending(b, cmp, render))
    ensures StableSort.TotalPreorder(Descending(b, cmp, render))
  {
    var asc := Ascending(b, cmp, render);
    var desc := Descending(b, cmp, render);
    forall x, y ensures asc(x, y) || asc(y, x) {
      assert cmp(SortKey(b, render, x), SortKey(b, render, y)) <= 0 || cmp(SortKey(b, render, y), SortKey(b, render, x)) <= 0;
    }
    forall x, y ensures desc(x, y) || desc(y, x) {
      assert cmp(SortKey(b, render, x), SortKey(b, render, y)) <= 0 || cmp(SortKey(b, render, y), SortKey(b, render, x)) <= 0;
    }
    forall x, y, z | asc(x, y) && asc(y, z) ensures asc(x, z) {
      assert cmp(SortKey(b, render, x), SortKey(b, render, y)) <= 0;
      assert cmp(SortKey(b, render, y), SortKey(b, render, z)) <= 0;
    }
    forall x, y, z | desc(x, y) && desc(y, z) ensures desc(x, z) {
      assert cmp(SortKey(b, render, y), SortKey(b, render, x)) <= 0;
      assert cmp(SortKey(b, render, z), SortKey(b, render, y)) <= 0;
    }
  }

  /** Re-appends the items in a new order; the store is not written. */
  function Reorder(b: Board, order: seq<NodeId>): (r: Board)
    requires Valid(b)
    requires multiset(order) == multiset(b.order)
    ensures Valid(r)
    ensures r.order == order && r.(order := b.order) == b
  {
    PermutationDistinct(order, b.order);
    assert forall id :: id in order ==> id in multiset(b.order);
    b.(order := order)
  }

  /** Sort ascending: a stable sort of the list by the comparator. Nothing is saved. */
  function SortAscending(b: Board, cmp: (string, string) -> int, render: Task -> string): (r: Board)
    requires Valid(b) && ConsistentComparator(cmp)
    ensures Valid(r)
    ensures multiset(r.order) == multiset(b.order)
    ensures forall i, j :: 0 <= i < j < |r.order| ==> cmp(SortKey(b, render, r.order[i]), SortKey(b, render, r.order[j])) <= 0
    ensures r.(order := b.order) == b
  {
    var le := Ascending(b, cmp, render);
    ComparatorOrders(b, cmp, render);
    StableSort.SortSorted(b.order, le);
    Reorder(b, StableSort.Sort(b.order, le))
  }

  /** Sort descending: the same with the comparator's arguments swapped. Nothing is saved. */
  function SortDescending(b: Board, cmp: (string, string) -> int, render: Task -> string): (r: Board)
    requires Valid(b) && ConsistentComparator(cmp)
    ensures Valid(r)
    ensures multiset(r.order) == multiset(b.order)
    ensures forall i, j :: 0 <= i < j < |r.order| ==> cmp(SortKey(b, render, r.order[j]), SortKey(b, render, r.order[i])) <= 0
    ensures r.(order := b.order) == b
  {
    var le := Descending(b, cmp, render);
    ComparatorOrders(b, cmp, render);
    StableSort.SortSorted(b.order, le);
    Reorder(b, StableSort.Sort(b.order, le))
  }

  // ---------------------------------------------------------------- dragging

  /**
   * The items the drop rule measures (`li:not(.dragging)`): the shown items,
   * without the dragged one while it carries the dragging mark.
   */
  function DropCandidates(b: Board, dragged: NodeId, marked: bool): (r: seq<NodeId>)
    ensures forall id :: id in r <==> id in b.order && (!marked || id != dragged)
  {
    if marked then Without(b.order, dragged) else b.order
  }

  /** `x` sits immediately before `a` in `s`. */
  ghost predicate JustBefore(s: seq<NodeId>, x: NodeId, a: NodeId) {
    exists i :: 0 <= i < |s| - 1 && s[i] == x && s[i + 1] == a
  }

  /**
   * One dragover event. `dragged` is the item the last dragstart picked up:
   * nothing ever clears it, so a dragover from a drag that did not start on a
   * list item (selected text, a file) still moves that item, even after it
   * was deleted. `marked` says whether it still carries the dragging mark,
   * which dragstart adds and dragend removes. `mids` are the midpoints of the
   * drop candidates, in list order. The item is inserted just before the
   * chosen candidate, or at the end; inserting it before itself leaves it in
   * place. Saving happens at dragend.
   */
  function DragOver(b: Board, dragged: NodeId, marked: bool, mids: seq<int>, y: int): (r: Board)
    requires Valid(b) && dragged in b.nodes
    requires |mids| == |DropCandidates(b, dragged, marked)|
    ensures Valid(r)
    ensures r.(order := b.order) == b
    ensures multiset(r.order) == multiset(Without(b.order, dragged)) + multiset{dragged}
    ensures dragged in b.order ==> multiset(r.order) == multiset(b.order)
    ensures dragged !in b.order ==> |r.order| == |b.order| + 1
    ensures Without(r.order, dragged) == Without(b.order, dragged)
    ensures match Drag.AfterElement(mids, y)
            case None => |r.order| > 0 && r.order[|r.order| - 1] == dragged
            case Some(k) =>
              var a := DropCandidates(b, dragged, marked)[k];
              if a == dragged then r == b else JustBefore(r.order, dragged, a)
  {
    var candidates := DropCandidates(b, dragged, marked);
    var anchor := match Drag.AfterElement(mids, y)
      case None => None
      case Some(k) => Some(candidates[k]);
    DraggedRemoved(b.order, dragged);
    b.(order := InsertBefore(b.order, dragged, anchor))
  }

  /**
   * Node.insertBefore on the list: `x` leaves its place, if it has one, and
   * goes just before `anchor`, or to the end when there is no anchor.
   * Inserting a node before itself leaves it where it is.
   */
  function InsertBefore(s: seq<NodeId>, x: NodeId, anchor: Option<NodeId>): (r: seq<NodeId>)
    requires Distinct(s)
    requires anchor.Some? ==> anchor.value in s
    ensures Distinct(r)
    ensures forall id :: id in r <==> id in s || id == x
    ensures multiset(r) == multiset(Without(s, x)) + multiset{x}
    ensures Without(r, x) == Without(s, x)
    ensures anchor == Some(x) ==> r == s
    ensures anchor.None? ==> |r| > 0 && r[|r| - 1] == x
    ensures anchor.Some? && anchor.value != x ==> JustBefore(r, x, anchor.value)
  {
    DraggedRemoved(s, x);
    if anchor == Some(x) then s
    else
      var siblings := Without(s, x);
      var k := if anchor.None? then |siblings| else IndexOf(siblings, anchor.value);
      InsertAt(siblings, x, k);
      SplicePlace(siblings, x, k);
      siblings[..k] + [x] + siblings[k..]
  }

  /** Taking the dragged item out of the shown list, whether or not it is shown. */
  lemma DraggedRemoved(s: seq<NodeId>, x: NodeId)
    requires Distinct(s)
    ensures Distinct(Without(s, x)) && x !in Without(s, x)
    ensures x in s ==> multiset(s) == multiset(Without(s, x)) + multiset{x}
    ensures x !in s ==> Without(s, x) == s
  {
    WithoutDistinct(s, x);
    WithoutIfAbsent(s, x);
    if x in s {
      WithoutMultiset(s, x);
    }
  }

  /** Inserting an absent `x` at position `k` adds one copy of it and keeps the rest, in order, without repeats. */
  /** Where the inserted `x` sits: at `k`, just before what was at `k`, and the last item when `k` was the end. */
  lemma SplicePlace(w: seq<NodeId>, x: NodeId, k: nat)
    requires k <= |w|
    ensures var r := w[..k] + [x] + w[k..];
      && (forall id :: id in r <==> id in w || id == x)
      && (k < |w| ==> JustBefore(r, x, w[k]))
      && (k == |w| ==> r[|r| - 1] == x)
  {
    var r := w[..k] + [x] + w[k..];
    assert w == w[..k] + w[k..];
    assert r[k] == x;
    if k < |w| {
      assert r[k + 1] == w[k];
    }
  }

  lemma InsertAt(w: seq<NodeId>, x: NodeId, k: nat)
    requires x !in w && k <= |w|
    ensures multiset(w[..k] + [x] + w[k..]) == multiset(w) + multiset{x}
    ensures Without(w[..k] + [x] + w[k..], x) == w
    ensures Distinct(w) ==> Distinct(w[..k] + [x] + w[k..])
  {
    var a, c := w[..k], w[k..];
    assert a + c == w;
    MultisetSplice(a, x, c);
    WithoutSplice(a, x, c);
    if Distinct(w) {
      var order := a + [x] + c;
      DistinctMultiset(w);
      DistinctMultiset(order);
      assert multiset(w)[x] == 0;
    }
  }
}

=== FILE: tasks.dfy ===
/** The one entity of the task list: what a list item shows and what is persisted for it. */
module Tasks {

  /** A task's text, its completed flag (the `completed` class) and its selection checkbox. */
  datatype Task = Task(text: string, completed: bool, checked: bool)
}

=== FILE: text.dfy ===
/** String.prototype.trim: removal of leading and trailing white space and line terminators. */
module Text {

  /** ECMAScript WhiteSpace and LineTerminator code points. */
  predicate IsJsSpace(c: char) {
    var n := c as int;
    || n == 0x09 || n == 0x0A || n == 0x0B || n == 0x0C || n == 0x0D
    || n == 0x20 || n == 0xA0 || n == 0x1680
    || (0x2000 <= n <= 0x200A)
    || n == 0x2028 || n == 0x2029 || n == 0x202F || n == 0x205F
    || n == 0x3000 || n == 0xFEFF
  }

  /** Every character of `s` is white space. */
  ghost predicate AllSpace(s: string) {
    forall i :: 0 <= i < |s| ==> IsJsSpace(s[i])
  }

  /** `s` without its leading white space: a suffix of `s`, preceded only by white space. */
  function TrimStart(s: string): (r: string)
    ensures |r| <= |s| && r == s[|s| - |r|..]
    ensures AllSpace(s[..|s| - |r|])
    ensures r != [] ==> !IsJsSpace(r[0])
    decreases |s|
  {
    if s != [] && IsJsSpace(s[0]) then TrimStart(s[1..]) else s
  }

  /** `s` without its trailing white space: a prefix of `s`, followed only by white space. */
  function TrimEnd(s: string): (r: string)
    ensures |r| <= |s| && r == s[..|r|]
    ensures AllSpace(s[|r|..])
    ensures r != [] ==> !IsJsSpace(r[|r| - 1])
    decreases |s|
  {
    if s != [] && IsJsSpace(s[|s| - 1]) then
      var init := s[..|s| - 1];
      var r := TrimEnd(init);
      assert init[..|r|] == s[..|r|];
      assert s[|r|..] == init[|r|..] + [s[|s| - 1]];
      r
    else s
  }

  /** `s` with white space removed at both ends. */
  function Trim(s: string): (r: string)
    ensures r != [] ==> !IsJsSpace(r[0]) && !IsJsSpace(r[|r| - 1])
  {
    TrimEnd(TrimStart(s))
  }

  /** The trimmed text is the slice of the input between its leading and its trailing white space. */
  lemma TrimIsSlice(s: string)
    ensures exists i, j :: (0 <= i <= j <= |s| && Trim(s) == s[i..j]
                            && AllSpace(s[..i]) && AllSpace(s[j..]))
  {
    var a := TrimStart(s);
    var i := |s| - |a|;
    var r := TrimEnd(a);
    var j := i + |r|;
    assert r == s[i..j];
    assert s[j..] == a[|r|..];
  }

  /** Trimming leaves nothing exactly when the input is all white space. */
  lemma TrimEmpty(s: string)
    ensures Trim(s) == [] <==> AllSpace(s)
  {
    var a := TrimStart(s);
    if Trim(s) == [] {
      assert AllSpace(a[0..]);
      assert a == [];
      assert s[..|s|] == s;
    }
  }

  /** A text with no white space at either end is its own trimmed form. */
  lemma TrimmedUnchanged(s: string)
    requires s != [] ==> !IsJsSpace(s[0]) && !IsJsSpace(s[|s| - 1])
    ensures Trim(s) == s
  {
    assert TrimStart(s) == s;
  }

  /** Trimming twice is the same as trimming once. */
  lemma TrimIdempotent(s: string)
    ensures Trim(Trim(s)) == Trim(s)
  {
    var r := Trim(s);
    if r != [] {
      assert TrimStart(r) == r;
      assert TrimEnd(r) == r;
    }
  }
}

=== FILE: wrappers.dfy ===
/** The optional value the decoders return, usable with the `:-` operator. */
module Wrappers {

  /**
   * Nothing, or exactly one value. The decoders use `None` for text they
   * cannot read; `:-` hands a `None` straight back to the caller.
   */
  datatype Option<+T> = None | Some(value: T) {

    /** `:-` stops at a `None`. */
    predicate IsFailure() {
      None?
    }

    /** The `None` that `:-` returns, at the caller's result type. */
    function PropagateFailure<U>(): Option<U>
      requires None?
    {
      None
    }

    /** The value `:-` binds when there is one. */
    function Extract(): T
      requires Some?
    {
      value
    }
  }
}
